=== FILE: README.md ===
# A Dafny model of the migrate engine

This project models the migration engine of thankful-ai/migrate (`migrate.go`). The engine applies
numbered `.sql` files from a directory to a database, in number order, exactly once. It keeps its
bookkeeping in the database itself:

- a history table holds one row per completed file, with the file's content and MD5 checksum;
- a checkpoint table holds one row per statement executed from a file that has not completed yet.

The model covers the engine's work:

- building the catalog from the directory and its dialect subdirectory;
- ordering the catalog by the number each file name starts with;
- the version gate and its one-time bootstrap of the history;
- skipping ahead to a named file;
- loading and validating the history;
- splitting a file into statements, including trigger-function bodies that embed `;`;
- checkpointed execution of one file;
- the run loop over the files that are not yet in the history.

The database is an explicit `Store` value (`model.dfy`) that every operation takes and returns:
the statements it has accepted, the checkpoint table, the history table and the version marker.
The file system is a value too: directory listings and file contents by path. Three inputs are
parameters, because the engine cannot see inside them:

- the checksum function, `sum: string -> string` (MD5 rendered in hex in the engine);
- the database's verdict on each statement, `rejects`: the (file, statement position) pairs it refuses;
- the contents of the directory and the files.

Modules, one per file:

| file | module | what it holds |
|---|---|---|
| errors.dfy | Errors | the engine's error kinds, `Option`, `Result`, `Outcome` |
| text.dfy | Text | the Go string helpers the engine uses: Split, Contains, ToLower, TrimSpace, HasPrefix, filepath.Ext and filepath.Split |
| model.dfy | Model | file system, catalog file, checkpoint and history rows, the `Store` |
| splitter.dfy | Splitter | statement splitting and trigger-block joining (first half of migrateFile) |
| executor.dfy | Executor | checkpoint verification and execution (second half of migrateFile) |
| catalog.dfy | Catalog | readDir and getOverrideSet |
| sequence.dfy | Sequence | sortFiles and the comparison it uses |
| history.dfy | History | validHistory, checkHash, history path resolution, and the Migrate run loop |
| engine.dfy | Engine | skip, migrationsFromFiles, the version gate, and New |

The Go loop that joins trigger blocks keeps a "still inside a block" flag. It is modelled twice:

- `Splitter.JoinTriggerBlocks` is that loop, written as a state machine;
- `Splitter.Group` is a reference grouping read from the front of the fragment list.

A loop invariant proves that the two give the same result. The reference grouping is what the
properties about statements are stated in.

The statement filter drops a piece whose trimmed text starts with `--`, and it drops the whole
piece. A comment line followed by a statement in the same piece is therefore never executed:
`-- add b` then `CREATE TABLE b(y int)` on the next line, before the next `;`, is dropped. The model
keeps this behaviour (`Splitter.FilterMembers`).

## Model

| member | source | states |
|---|---|---|
| `Text.Split` | migrate.go:199 | the `;`-fragments rejoin, with `;` between them, to the file text; there is at least one fragment and none holds a `;` |
| `Text.SplitJoin` | migrate.go:199 | splitting inverts joining: `;`-free fragments joined with `;` split back into exactly those fragments |
| `Text.ContainsIff` | migrate.go:207 | the substring scan finds the marker exactly when some position of the text holds it |
| `Text.TrimSpacePadded` | migrate.go:230 | trimming keeps one contiguous piece of the statement and removes only whitespace on either side of it |
| `Text.TrimSpaceUnique` | migrate.go:230 | a piece that neither starts nor ends with whitespace, and has only whitespace around it, is exactly what trimming returns |
| `Text.ExtSql` | migrate.go:394 | a name has the ".sql" extension exactly when it ends in ".sql" |
| `Text.Base` | migrate.go:319 | the skip target's base name is the suffix after its last '/', and holds no '/' |
| `Splitter.JoinTriggerBlocks` | migrate.go:203-225 | the joining loop returns the reference grouping, and fails exactly when the text ends inside an open trigger block |
| `Splitter.GroupFailsIff` | migrate.go:223-225 | grouping fails exactly when some "returns trigger as" fragment is followed by no "plpgsql" fragment and no further opener |
| `Splitter.TriggerBlockIsOneStatement` | migrate.go:205-221 | an opener, body fragments and a closer become one statement: the fragments rejoined with their `;` restored |
| `Splitter.GroupWithoutOpeners` | migrate.go:221 | without trigger blocks every `;`-fragment is a statement of its own, in order |
| `Splitter.FilterMembers` | migrate.go:228-234 | a statement is kept exactly when it is the trimmed form of some piece and is non-empty and does not start with "--" |
| `Splitter.FilterExecutable` | migrate.go:229-233 | every kept statement is trimmed, non-empty and not a comment |
| `Splitter.FilterAppend` | migrate.go:229-234 | filtering works piece by piece: it distributes over concatenation, keeping order |
| `Splitter.SplitStatements` | migrate.go:198-239 | once grouping succeeds, the statements are exactly the kept groups, in order, and the split fails with "no statements" exactly when none is kept; it fails with "unterminated block" exactly when the text ends inside a trigger block; every statement is trimmed and executable |
| `Splitter.TriggerFileStatements` | migrate.go:198-239 | a file that opens with a trigger function yields that function, re-joined across its `;` and trimmed, as its first statement, unless that text opens with a `--` line, in which case the whole block is dropped; the statements of the rest follow |
| `Splitter.SplitWithoutTriggers` | migrate.go:199-239 | a file without trigger blocks splits into its kept `;`-fragments, none of which holds a `;` |
| `Model.Upsert` | migrate.go:343 | upserting a row leaves the new row present, keeps every row of another name, and adds nothing else |
| `Model.CheckpointSumsFor` | migrate.go:289-297 | the checkpoints written for statements lo..hi record exactly those statements' checksums, in order |
| `Executor.FirstMismatch` | migrate.go:256-270 | finds the first checkpointed statement whose checksum differs from its checkpoint, or reports that all match |
| `Executor.ExecFrom` | migrate.go:282-297 | executes the statements from i on, in order, each followed by its checkpoint, and stops at the first refused one with that position in the error |
| `Executor.RunStatements` | migrate.go:241-314 | the checkpointed run of one file's statements: a failure adds no history and is a checkpoint-count error, or a checksum mismatch or refused statement in this file; success clears the checkpoints and adds one history row with the file's content and checksum |
| `Executor.MigrateFile` | migrate.go:192-315 | a readable, splittable file goes through the checkpointed run of exactly its statements; a failure adds no history and is a read error on the file's path, a "no statements", checkpoint-mismatch or refused-statement error naming the file, an unterminated trigger block, or a checkpoint-count error; success clears the checkpoints and adds one history row holding its content and checksum |
| `Executor.MigrateFileResumes` | migrate.go:241-314 | a file whose checkpoint rows match its first statements, with statements left after them and none of those refused, completes having executed exactly the statements after its checkpoints, clears the checkpoints and adds one history row |
| `Executor.MigrateFileRuns` | migrate.go:192-314 | a readable, splittable file without checkpoint rows and with no refused statement completes, having executed all its statements in order, with one history row |
| `Executor.MigrateFileUnsplittable` | migrate.go:193-239 | an unreadable or unsplittable file fails and leaves the store untouched |
| `Executor.GuardsRunFirst` | migrate.go:250-270 | with at least as many checkpoints as statements, or a changed checkpointed statement, the file fails with that error before anything executes |
| `Executor.ExecutesUncheckpointedSuffix` | migrate.go:256-298 | once the checkpoints check out, exactly the statements after them are executed, in order, up to the first refused one, with one checkpoint per executed statement |
| `Executor.FailedRunCheckpoints` | migrate.go:282-297 | a run refused at statement j leaves checkpoints covering exactly the first j statements, with their checksums |
| `Executor.UnrefusedRunCompletes` | migrate.go:256-314 | when the checkpoints check out and nothing remaining is refused, the file completes having executed exactly the remaining statements |
| `Executor.ResumeCompletesOnce` | migrate.go:241-314 | after a refused statement, a later run over the same statements completes the file, and across both runs each statement after the original checkpoints ran exactly once, in order |
| `Executor.EditAfterCheckpointDetected` | migrate.go:256-268 | editing a statement that a failed run already executed makes the next run fail on a checkpoint mismatch before executing anything |
| `Executor.ShrunkFileRefused` | migrate.go:250-254 | a file that lost statements a failed run had executed is refused before anything runs |
| `Catalog.Collect` | migrate.go:386-398 | the first readDir loop keeps exactly the eligible entries, in listing order, each under the directory path |
| `Catalog.ReadDir` | migrate.go:368-416 | the catalog: fails on an unreadable directory or with no eligible file, and otherwise succeeds exactly when the override set can be built, failing with its error; it names the eligible entries in listing order, each read from its override when the override set holds that name and from the directory otherwise |
| `Catalog.OverrideSet` | migrate.go:418-443 | no dialect, or no subdirectory of that name, means no overrides; otherwise the subdirectory's own catalog, read without a dialect, is the override set, keyed by exactly its names, and its failure is the set's failure |
| `Catalog.ScanForDialect` | migrate.go:424-437 | the listing scan reads the catalog of the subdirectory named after the dialect when the listing holds one, and finds nothing otherwise |
| `Catalog.ApplyOverrides` | migrate.go:409-414 | replacing catalog files by their overrides keeps every name and position, swaps in the override's path where one exists, and leaves every other file as it was |
| `Catalog.ReadDirWithDialect` | migrate.go:368-443 | with a dialect subdirectory whose catalog reads, the catalog succeeds and each file is read from that subdirectory when it holds the name, and from the directory otherwise |
| `Catalog.OverrideMap` | migrate.go:438-441 | the override set holds exactly the names of the dialect catalog, each mapped to a file of that name |
| `Catalog.ReadDirWithoutDialect` | migrate.go:368-416 | without a dialect the catalog is the directory's own eligible files, in listing order |
| `Catalog.OverrideWins` | migrate.go:403-414 | an override changes a catalog entry's path to the dialect directory, never its name or position |
| `Catalog.EligibleNamesIff` | migrate.go:386-398 | a name is in the catalog exactly when some listing entry of that name is a plain, non-hidden file |
| `Catalog.EligibleIff` | migrate.go:389-396 | eligibility is: not a directory, not starting with '.', and ending in ".sql" |
| `Sequence.LeadingDigits` | migrate.go:453-454 | the leading digit run of a name, as matched by `^\d+` |
| `Sequence.ParseUint64` | migrate.go:455-466 | a digit string parses unless it is empty or exceeds 64 bits |
| `Sequence.Sort` | migrate.go:449-472 | sorting by number yields a strictly increasing arrangement of the same files |
| `Sequence.DigitsValueAppend` | migrate.go:455-466 | a digit appended to a digit string multiplies its value by ten and adds the digit: numbers are read in decimal, most significant digit first |
| `Sequence.ExampleKeys` | migrate.go:453-466 | "1.sql", "2.sql" and "10.sql" are numbered 1, 2 and 10: numbers are compared by value, not as text |
| `Sequence.SortFilesIs` | migrate.go:447-474 | with every name numbered and no number repeated, the sorted catalog is the one arrangement of the files in increasing number order |
| `Sequence.SortFiles` | migrate.go:447-474 | fewer than two files stand as they are; otherwise sorting succeeds exactly when every name starts with a 64-bit number and no two numbers repeat, gives a permutation in increasing order, and otherwise names the unparsable file or the repeated number |
| `Sequence.SortOrderIndependent` | migrate.go:447-474 | the applied order does not depend on the order of the directory listing |
| `Sequence.CompareAsWritten` | migrate.go:449-472 | the comparison as written: succeeds exactly on two numbered, different files, ordering them by number |
| `Sequence.CompareAsWrittenMisnames` | migrate.go:461-464 | comparing "1.sql" with "x.sql" reports "1.sql", the name that parses |
| `Sequence.Compare` | migrate.go:453-471 | the corrected comparison orders by number and blames an unparsable name on the file that carries it |
| `Sequence.SortErrorIsCompareError` | migrate.go:447-474 | every error the sort reports is one the comparison gives on some pair of catalog files |
| `History.Resolve` | migrate.go:124-131 | each loaded history row keeps its name, checksum and content, and reads from its dialect override, or from the directory when there is none |
| `History.CheckHash` | migrate.go:174-190 | a history row passes exactly when its file is readable and still has the recorded checksum; otherwise it fails with the read error or the checksum mismatch |
| `History.CheckFrom` | migrate.go:160-170 | the validation loop passes exactly when every row from i on is intact; a name mismatch is reported at its position, after only intact rows |
| `History.ValidHistory` | migrate.go:153-172 | a history longer than the catalog fails as "missing migrations"; otherwise it passes exactly when every row from the skip offset on names the catalog file at its position and that file still has its checksum |
| `History.MigrateFrom` | migrate.go:142-149 | the run loop never lowers the version marker, never drops an executed statement, and never shrinks the history |
| `History.MigrateFromAppends` | migrate.go:142-149 | the run loop appends one completion row per migrated file, in catalog order: every remaining file on success, and the files before the failing one on failure |
| `History.MigrateFromStopsAt` | migrate.go:142-146 | a failed run loop stops at the catalog file right after the ones it appended: the files before it complete, and the loop's result is that file's own migrateFile outcome from the store they leave |
| `History.MigrateFromPasses` | migrate.go:142-149 | the run loop completes when the first remaining file can be finished from its checkpoint rows and every later file is readable, splits and runs into no refused statement; the checkpoint table ends empty and the history gains one row per remaining file |
| `History.MigrateFromExecutes` | migrate.go:142-149 | under the same conditions the run loop executes exactly the first file's statements after its checkpoints, then every statement of each later file, in catalog order, and nothing else |
| `History.Migrate` | migrate.go:140-151 | reports that something migrated exactly when the run succeeded with files left to run; with none left it changes nothing; on success the history gains one row per remaining file, in order |
| `History.MigrateStopsAt` | migrate.go:140-151 | a failed Migrate stops at a catalog file beyond the history, right after the files it appended: the files before it complete, and the result is that file's own migrateFile outcome from the store they leave |
| `History.MigrateCompletes` | migrate.go:140-151 | Migrate reports a migration whenever files remain, the first can be finished from its checkpoint rows and every later one is readable, splits and runs into no refused statement; it executes exactly the statements not yet run, in catalog order |
| `History.IntactAfterRun` | migrate.go:153-172 | after a completed run each history row is intact against the catalog file at its position |
| `History.CompletedRunValidates` | migrate.go:140-172 | after a completed run the history has one row per catalog file and validates again |
| `Engine.FindFile` | migrate.go:322-331 | finds the first catalog file of the given name, or reports that none has it |
| `Engine.UpsertFrom` | migrate.go:332-351 | the skip loop succeeds exactly when every file up to the target is readable; it records each of them and keeps the rows of other names |
| `Engine.SkipTo` | migrate.go:321-352 | skip fails as unknown, leaving the store untouched, exactly when no catalog file has the name; otherwise it looks up the first such position and, whether or not recording then succeeds, executes nothing |
| `Engine.SkipToSucceeds` | migrate.go:321-352 | when the target is in the catalog, skip succeeds exactly when every file up to and including it is readable |
| `Engine.Skip` | migrate.go:317-320 | the skip target is looked up by its base name |
| `Engine.UpsertFromFresh` | migrate.go:332-351 | upserting rows whose names the history lacks appends them, in catalog order |
| `Engine.SkipOnFreshHistory` | migrate.go:317-353 | on an empty history, skip records exactly the files up to and including the target, in catalog order |
| `Engine.MigrationsFromFiles` | migrate.go:476-491 | succeeds exactly when every catalog file is readable, giving one row per file, in order, with its name, content and path and no checksum |
| `Engine.VersionGate` | migrate.go:82-101 | a version above the tool's is refused; a version below 1 bootstraps one history row per catalog file, or fails on an unreadable file; any other version passes unchanged |
| `Engine.Catalogue` | migrate.go:64-72 | the catalog succeeds exactly when reading and sorting do, propagates the read error, and is a permutation of the directory catalog in strictly increasing number order with distinct names |
| `Engine.SkipStep` | migrate.go:105-111 | without a target nothing changes and the offset is 0; with one, skip runs on the base name, executes nothing, and on success the offset is the position of a file with that name; failure is an unknown target or an unreadable file |
| `Engine.New` | migrate.go:56-136 | opening executes nothing and changes no checkpoint; a catalog or version-gate error leaves the store as it was; after the gate the store is the one the skip step leaves, even when opening then fails; a skip failure or a failed validation of the history that store holds is the opening's error; an opened engine holds the sorted catalog and that history with resolved paths, the history validates, and the version marker is 1; the skip offset is 0, or the target's position |
| `Engine.SortedNamesDistinct` | migrate.go:447-474 | a successfully sorted catalog has no two files of the same name |
| `Engine.ResolveMatchesCatalog` | migrate.go:124-131 | a history row resolves to the same path the catalog reads the file of that name from |
| `Engine.OpenedPathsMatch` | migrate.go:119-131 | after opening, every catalog file resolves by name to its own path |
| `Engine.CompletedRunReopens` | migrate.go:56-151 | opening and then migrating to completion leaves a history that the next opening validates, with one row per catalog file |
| `Engine.BootstrapOpens` | migrate.go:89-101 | a store that predates versioning opens, without a skip target, whenever every catalog file is readable; its seeded history has one row per file and validates |
| `Engine.TamperedHistoryRefused` | migrate.go:153-190 | a store at the current version whose history, from the skip offset on, has a row naming a different file than the catalog at that position, or whose file is missing or changed, is refused when opening |
| `Engine.SkipOverSeeded` | migrate.go:317-352 | on a history that already holds one row per catalog file, as the bootstrap seeds it, skip finds the target and leaves the store unchanged |
| `Engine.SeededValidates` | migrate.go:119-172 | a history holding one row per catalog file, with its current checksum, validates from any skip offset |
| `Engine.BootstrapSkipOpens` | migrate.go:89-111 | a store that predates versioning opens with a skip target that is in the catalog, whenever every catalog file is readable; the engine holds the seeded history and the target's position as offset |
| `Engine.NewOpens` | migrate.go:56-136 | any store the version gate accepts, bootstrapped or at a current version, opens whenever the catalog builds, the skip step succeeds and the resulting history validates, and the engine holds that history with resolved paths, the catalog and the skip offset |

## Left out

- File and directory I/O are a `FileSystem` value. A read fails exactly when the path is missing. Close errors and partial reads are not modelled.
- MD5 and its hex rendering are the `sum` parameter. The proofs use only that it is a function; no collision resistance is assumed.
- `Store` calls other than `Exec` always succeed: the meta-table creation calls, `GetMetaCheckpoints`, `InsertMetaCheckpoint`, `DeleteMetaCheckpoints`, `InsertMigration`, `UpsertMigration`, `GetMigrations` and `UpgradeToV1`. `Exec`'s failures are the `rejects` parameter. SQL semantics are not modelled: an accepted statement is appended to `executed`.
- The store implementations are not part of this model. `CreateMetaVersionIfNotExists` returns the store's `version` field. `GetMetaCheckpoints` returns the checksums of the named file's checkpoint rows, in table order. `DeleteMetaCheckpoints` clears the whole checkpoint table, as its name says.
- Engine.UpgradeToV1: the store behaviour is assumed, because the store code is not part of this model. It stores each row with the checksum of the row's content; the rows migrationsFromFiles hands over carry an empty checksum.
- Logging (the `shortCmd` progress line, "skipped ahead", "OVERRIDING") and the wording of error messages are not modelled. Errors are kinds with the values that matter.
- `strings.ToLower` is modelled for ASCII letters only. `unicode.IsSpace` is modelled for Latin-1 whitespace only.
- `filepath.Join` is plain concatenation with '/'. Path cleaning (`..`, doubled or trailing separators) is not modelled.
- Sequence.SortFiles: when several names are unparsable, or several numbers repeat, which error is reported depends on the order in which `sort.Slice` compares. The contract states only that the error names one unparsable file or one repeated number. The comparison order of Go's sort is not modelled, so the result of the misnaming comparison below is not carried into `SortFiles`.
- Sequence.SortFiles: `regexNum` and `ParseUint` are modelled on ASCII digits. Leading zeros parse as in Go.
- History.Migrate: its own contract states the reported flag and the history on success. Where a failed run stops is stated by `History.MigrateStopsAt`, and the statements a completed run executes by `History.MigrateCompletes`. The statements executed when a run fails are stated only per file, by `History.MigrateStopsAt` and the `Executor` lemmas.
- Sequence.SortFiles: when the catalog holds both an unparsable name and a repeated number, Go may report the repeated number if `sort.Slice` compares the repeated pair first. The model checks names before numbers and reports the unparsable name, so its contract names a repeated number only when every name parses.
- Error positions: the model's `NotAppended` and `ExecFailed` errors carry the position of the history row or statement. Go's messages for a name mismatch and a refused statement do not include it, so the position is extra information the model adds. `CheckpointMismatch` carries the statement position as Go's message does.
- Engine.SkipTo: the rows it records are stated only for catalogs with distinct names, which `Engine.Catalogue` guarantees. For an arbitrary list, `UpsertMigration`'s replacement of same-named rows is stated by `Model.Upsert`.
- The `Migrate` struct's logger is left out. Its `Migrations` field is the `Engine` value `New` returns, and `Migrate` takes that value and the store explicitly.
- Concurrency between two engines on one database is not modelled. Neither is the transaction behaviour of the store.

## Findings

| source | as written | input that shows it | evidently intended | confidence | as-written member | corrected member |
|---|---|---|---|---|---|---|
| migrate.go:461-464 | when the second name of a comparison does not parse, the error names the first file, `files[i]`; only the message is affected, the sort still fails | comparing "1.sql" (at i) with "x.sql" (at j) reports "parse uint in file 1.sql" | the error names the file whose name does not parse, `files[j]` | high; not executed | `Sequence.CompareAsWritten` (counterexample in `Sequence.CompareAsWrittenMisnames`) | `Sequence.Compare`, with `Sequence.SortErrorIsCompareError` |

=== FILE: catalog.dfy ===
/** Building the catalog from the migration directory (migrate.go, readDir and
    getOverrideSet): eligible entries of the directory, each replaced by the
    same-named file of the dialect subdirectory when there is one. */
module Catalog {
  import opened Errors
  import opened Text
  import opened Model

  const SqlExt := ".sql"

  /** A directory entry that names a migration: not a directory, not hidden, and
      with the ".sql" extension. */
  predicate Eligible(e: DirEntry)
  {
    !e.isDir && !HasPrefix(e.name, ".") && Ext(e.name) == SqlExt
  }

  /** The names of the eligible entries, in listing order. */
  function EligibleNames(entries: seq<DirEntry>): seq<string>
    decreases |entries|
  {
    if |entries| == 0 then []
    else (if Eligible(entries[0]) then [entries[0].name] else []) + EligibleNames(entries[1..])
  }

  function Names(files: seq<CatalogFile>): (names: seq<string>)
    ensures |names| == |files|
    ensures forall i :: 0 <= i < |files| ==> names[i] == files[i].name
  {
    seq(|files|, i requires 0 <= i < |files| => files[i].name)
  }

  lemma NamesAppend(a: seq<CatalogFile>, b: seq<CatalogFile>)
    ensures Names(a + b) == Names(a) + Names(b)
  {
  }

  /** The first loop of readDir: the eligible entries as catalog files under `dir`. */
  function Collect(dir: string, entries: seq<DirEntry>): (files: seq<CatalogFile>)
    ensures Names(files) == EligibleNames(entries)
    ensures forall i :: 0 <= i < |files| ==> files[i].fullpath == PathJoin(dir, files[i].name)
    decreases |entries|
  {
    if |entries| == 0 then []
    else
      var e := entries[0];
      var rest := Collect(dir, entries[1..]);
      var head := if Eligible(e) then [CatalogFile(e.name, PathJoin(dir, e.name))] else [];
      var files := head + rest;
      NamesAppend(head, rest);
      assert Names(head) == (if Eligible(e) then [e.name] else []);
      files
  }

  /** The override set: files by name, a later file replacing an earlier one. */
  function OverrideMap(files: seq<CatalogFile>): (m: map<string, CatalogFile>)
    ensures forall n :: n in m <==> n in Names(files)
    ensures forall n :: n in m ==> m[n] in files && m[n].name == n
    decreases |files|
  {
    if |files| == 0 then map[]
    else
      var last := files[|files| - 1];
      var m := OverrideMap(files[..|files| - 1])[last.name := last];
      assert Names(files) == Names(files[..|files| - 1]) + [last.name];
      m
  }

  /** The second loop of readDir: every file with an override is replaced by it.
      Overrides are keyed by their own names, so only paths change. */
  function ApplyOverrides(files: seq<CatalogFile>, overrides: map<string, CatalogFile>): (r: seq<CatalogFile>)
    requires forall n :: n in overrides ==> overrides[n].name == n
    ensures Names(r) == Names(files)
    ensures forall i :: 0 <= i < |files| ==> files[i].name !in overrides ==> r[i] == files[i]
    ensures forall i :: 0 <= i < |files| ==>
      files[i].name in overrides ==> r[i].fullpath == overrides[files[i].name].fullpath
  {
    seq(|files|, i requires 0 <= i < |files| =>
      if files[i].name in overrides then overrides[files[i].name] else files[i])
  }

  /** Rank of the dialect tag for termination: scanning with a tag may read the
      dialect directory with the empty tag, and never deeper. */
  function TagRank(dbt: string): nat
  {
    if dbt == "" then 0 else 1
  }

  /** readDir: the catalog of `dir` with the overrides of dialect `dbt` applied. */
  function ReadDir(fs: FileSystem, dir: string, dbt: string): (r: Result<seq<CatalogFile>>)
    ensures dir !in fs.dirs ==> r == Err(ReadDirFailed(dir))
    ensures dir in fs.dirs && EligibleNames(fs.dirs[dir]) == [] ==> r == Err(NoSqlFiles(dir))
    ensures r.Ok? ==> dir in fs.dirs && |r.value| > 0
    ensures r.Ok? ==> Names(r.value) == EligibleNames(fs.dirs[dir])
    ensures r.Ok? ==> forall i :: 0 <= i < |r.value| ==>
      r.value[i].fullpath == PathJoin(dir, r.value[i].name)
      || (dbt != "" && r.value[i].fullpath == PathJoin(PathJoin(dir, dbt), r.value[i].name))
    ensures dir in fs.dirs && EligibleNames(fs.dirs[dir]) != [] ==>
      (r.Ok? <==> OverrideSet(fs, dir, dbt).Ok?)
    ensures dir in fs.dirs && EligibleNames(fs.dirs[dir]) != [] && OverrideSet(fs, dir, dbt).Err? ==>
      r == Err(OverrideSet(fs, dir, dbt).error)
    ensures r.Ok? ==> OverrideSet(fs, dir, dbt).Ok? && forall i :: 0 <= i < |r.value| ==>
      r.value[i].fullpath ==
        (if r.value[i].name in OverrideSet(fs, dir, dbt).value
         then OverrideSet(fs, dir, dbt).value[r.value[i].name].fullpath
         else PathJoin(dir, r.value[i].name))
    decreases TagRank(dbt), 2, 0
  {
    if dir !in fs.dirs then Err(ReadDirFailed(dir))
    else
      var files := Collect(dir, fs.dirs[dir]);
      if |files| == 0 then Err(NoSqlFiles(dir))
      else
        match OverrideSet(fs, dir, dbt)
        case Err(e) => Err(e)
        case Ok(overrides) =>
          var r := ApplyOverrides(files, overrides);
          assert Names(r) == Names(files);
          Ok(r)
  }

  /** getOverrideSet: the catalog of the subdirectory named after the dialect, read
      with the empty tag, by file name. Entry names are never empty, so the empty
      tag matches no subdirectory and the descent stops there. */
  function OverrideSet(fs: FileSystem, dir: string, dbt: string): (r: Result<map<string, CatalogFile>>)
    ensures dir !in fs.dirs ==> r == Err(ReadDirFailed(dir))
    ensures dbt == "" && dir in fs.dirs ==> r == Ok(map[])
    ensures r.Ok? ==> forall n :: n in r.value ==>
      r.value[n].name == n && r.value[n].fullpath == PathJoin(PathJoin(dir, dbt), n)
    ensures dir in fs.dirs && dbt != "" && !DialectListed(fs.dirs[dir], dbt) ==> r == Ok(map[])
    ensures dir in fs.dirs && dbt != "" && DialectListed(fs.dirs[dir], dbt) ==>
      var sub := ReadDir(fs, PathJoin(dir, dbt), "");
      && (sub.Err? ==> r == Err(sub.error))
      && (sub.Ok? ==> r.Ok? && (forall n :: n in r.value <==> n in Names(sub.value))
                            && (forall n :: n in r.value ==> r.value[n] in sub.value))
    decreases TagRank(dbt), 1, 0
  {
    if dir !in fs.dirs then Err(ReadDirFailed(dir))
    else if dbt == "" then Ok(map[])
    else
      match ScanForDialect(fs, dir, dbt, fs.dirs[dir], [])
      case Err(e) => Err(e)
      case Ok(files) => Ok(OverrideMap(files))
  }

  /** The listing holds a subdirectory named after the dialect. */
  predicate DialectListed(entries: seq<DirEntry>, dbt: string)
  {
    exists k :: 0 <= k < |entries| && entries[k].isDir && entries[k].name == dbt
  }

  lemma DialectListedTail(entries: seq<DirEntry>, dbt: string)
    requires |entries| > 0
    ensures DialectListed(entries, dbt) <==>
      (entries[0].isDir && entries[0].name == dbt) || DialectListed(entries[1..], dbt)
  {
    if DialectListed(entries[1..], dbt) {
      var k :| 0 <= k < |entries[1..]| && entries[1..][k].isDir && entries[1..][k].name == dbt;
      assert entries[k + 1] == entries[1..][k];
    }
    if DialectListed(entries, dbt) && !(entries[0].isDir && entries[0].name == dbt) {
      var k :| 0 <= k < |entries| && entries[k].isDir && entries[k].name == dbt;
      assert entries[1..][k - 1] == entries[k];
    }
  }

  /** The loop of getOverrideSet: every subdirectory entry named `dbt` is read
      (with the empty tag); the last one read provides the overrides. */
  function ScanForDialect(fs: FileSystem, dir: string, dbt: string, entries: seq<DirEntry>,
                          found: seq<CatalogFile>): (r: Result<seq<CatalogFile>>)
    requires dbt != ""
    requires forall i :: 0 <= i < |found| ==> found[i].fullpath == PathJoin(PathJoin(dir, dbt), found[i].name)
    ensures r.Ok? ==> forall i :: 0 <= i < |r.value| ==>
      r.value[i].fullpath == PathJoin(PathJoin(dir, dbt), r.value[i].name)
    ensures !DialectListed(entries, dbt) ==> r == Ok(found)
    ensures DialectListed(entries, dbt) ==> r == ReadDir(fs, PathJoin(dir, dbt), "")
    decreases TagRank(dbt), 0, |entries|
  {
    if |entries| == 0 then Ok(found)
    else
      var e := entries[0];
      DialectListedTail(entries, dbt);
      if !e.isDir || e.name != dbt then ScanForDialect(fs, dir, dbt, entries[1..], found)
      else
        match ReadDir(fs, PathJoin(dir, e.name), "")
        case Err(err) => Err(err)
        case Ok(files) => ScanForDialect(fs, dir, dbt, entries[1..], files)
  }

  /** Without a dialect tag the catalog is the directory's own eligible files,
      in listing order, read from the directory itself. */
  lemma ReadDirWithoutDialect(fs: FileSystem, dir: string)
    requires dir in fs.dirs && EligibleNames(fs.dirs[dir]) != []
    ensures ReadDir(fs, dir, "") == Ok(Collect(dir, fs.dirs[dir]))
  {
    var files := Collect(dir, fs.dirs[dir]);
    assert ApplyOverrides(files, map[]) == files;
  }

  /** An override replaces the path of the same-named file, never its name or its
      place: where the dialect directory holds a file of that name, the catalog
      reads it from there. */
  lemma OverrideWins(fs: FileSystem, dir: string, dbt: string, i: nat)
    requires ReadDir(fs, dir, dbt).Ok?
    requires OverrideSet(fs, dir, dbt).Ok?
    requires i < |Collect(dir, fs.dirs[dir])|
    ensures var name := Collect(dir, fs.dirs[dir])[i].name;
      && ReadDir(fs, dir, dbt).value[i].name == name
      && ReadDir(fs, dir, dbt).value[i].fullpath ==
           (if name in OverrideSet(fs, dir, dbt).value then PathJoin(PathJoin(dir, dbt), name)
            else PathJoin(dir, name))
  {
  }

  /** With a dialect subdirectory whose own catalog reads, the catalog keeps the
      main directory's names and order, and reads exactly the names that the
      dialect catalog also holds from the dialect subdirectory. */
  lemma ReadDirWithDialect(fs: FileSystem, dir: string, dbt: string)
    requires dir in fs.dirs && EligibleNames(fs.dirs[dir]) != [] && dbt != ""
    requires DialectListed(fs.dirs[dir], dbt)
    requires ReadDir(fs, PathJoin(dir, dbt), "").Ok?
    ensures ReadDir(fs, dir, dbt).Ok?
    ensures var r := ReadDir(fs, dir, dbt).value;
      var sub := ReadDir(fs, PathJoin(dir, dbt), "").value;
      && Names(r) == EligibleNames(fs.dirs[dir])
      && forall i :: 0 <= i < |r| ==>
           r[i].fullpath == (if r[i].name in Names(sub) then PathJoin(PathJoin(dir, dbt), r[i].name)
                             else PathJoin(dir, r[i].name))
  {
  }

  /** The catalog names are exactly the names of the eligible entries: plain files,
      not hidden, whose name ends in ".sql". */
  lemma {:induction false} EligibleNamesIff(entries: seq<DirEntry>, n: string)
    ensures n in EligibleNames(entries) <==>
      exists i :: 0 <= i < |entries| && entries[i].name == n && Eligible(entries[i])
    decreases |entries|
  {
    if |entries| > 0 {
      EligibleNamesIff(entries[1..], n);
      assert EligibleNames(entries)
        == (if Eligible(entries[0]) then [entries[0].name] else []) + EligibleNames(entries[1..]);
      if exists i :: 1 <= i < |entries| && entries[i].name == n && Eligible(entries[i]) {
        var i :| 1 <= i < |entries| && entries[i].name == n && Eligible(entries[i]);
        assert entries[1..][i - 1] == entries[i];
      }
    }
  }

  /** Eligibility spelled out: the ".sql" extension test is the suffix test. */
  lemma EligibleIff(e: DirEntry)
    ensures Eligible(e) <==>
      !e.isDir && !HasPrefix(e.name, ".") && |e.name| >= 4 && e.name[|e.name| - 4..] == ".sql"
  {
    ExtSql(e.name);
  }
}

=== FILE: engine.dfy ===
/** Opening the engine (migrate.go, New): catalog construction and ordering, the
    bookkeeping version gate with its one-time bootstrap (migrationsFromFiles), the
    optional skip ahead (skip), loading the history with resolved paths, and
    validating it. */
module Engine {
  import opened Errors
  import opened Text
  import opened Model
  import opened Executor
  import opened Catalog
  import opened Sequence
  import opened History

  /** The bookkeeping schema version this engine understands. */
  const ToolVersion := 1

  /** No two catalog files share a name. */
  predicate DistinctNames(files: seq<CatalogFile>)
  {
    forall a, b :: 0 <= a < b < |files| ==> files[a].name != files[b].name
  }

  /** The first catalog position, at or after `i`, holding a file named `name`. */
  function FindFile(files: seq<CatalogFile>, name: string, i: nat): (r: Option<nat>)
    requires i <= |files|
    ensures r.None? <==> forall k :: i <= k < |files| ==> files[k].name != name
    ensures r.Some? ==> i <= r.value < |files| && files[r.value].name == name
    ensures r.Some? ==> forall k :: i <= k < r.value ==> files[k].name != name
    decreases |files| - i
  {
    if i == |files| then None
    else if files[i].name == name then Some(i)
    else FindFile(files, name, i + 1)
  }

  /** The loop of skip from position `i` up to (excluding) `hi`: read each file and
      upsert its history row, stopping at the first file that cannot be read. */
  function UpsertFrom(st: Store, fs: FileSystem, files: seq<CatalogFile>, i: nat, hi: nat, sum: Hasher): (r: Run)
    requires i <= hi <= |files|
    ensures r.store.executed == st.executed && r.store.checkpoints == st.checkpoints
    ensures r.store.version == st.version
    ensures r.outcome.Pass? <==> forall k :: i <= k < hi ==> files[k].fullpath in fs.files
    ensures r.outcome.Fail? ==> r.outcome.error.ReadFileFailed?
    ensures r.outcome.Pass? ==>
      (forall x :: x in st.history && (forall k :: i <= k < hi ==> files[k].name != x.filename) ==> x in r.store.history)
    ensures r.outcome.Pass? && DistinctNames(files) ==>
      forall k :: i <= k < hi ==> files[k].fullpath in fs.files && RecordOf(fs, files[k], sum) in r.store.history
    decreases hi - i
  {
    if i == hi then Run(st, Pass)
    else if files[i].fullpath !in fs.files then Run(st, Fail(ReadFileFailed(files[i].fullpath)))
    else
      var rec := RecordOf(fs, files[i], sum);
      var st' := st.(history := Upsert(st.history, rec));
      var r := UpsertFrom(st', fs, files, i + 1, hi, sum);
      assert rec in st'.history;
      r
  }

  /** What skip leaves: the store, and the catalog position skipped up to. */
  datatype Skipped = Skipped(store: Store, index: Result<nat>)

  /** skip once the target is a base name: locate the first catalog file of that
      name and record every file up to and including it as applied, without
      executing anything. */
  function SkipTo(st: Store, fs: FileSystem, files: seq<CatalogFile>, name: string, sum: Hasher): (r: Skipped)
    ensures r.store.executed == st.executed && r.store.checkpoints == st.checkpoints
    ensures r.store.version == st.version
    ensures r.index == Err(UnknownSkipTarget(name)) <==> forall k :: 0 <= k < |files| ==> files[k].name != name
    ensures r.index == Err(UnknownSkipTarget(name)) ==> r.store == st
    ensures r.index.Err? ==> r.index.error.UnknownSkipTarget? || r.index.error.ReadFileFailed?
    ensures r.index.Ok? ==>
      && r.index.value < |files|
      && files[r.index.value].name == name
      && (forall k :: 0 <= k < r.index.value ==> files[k].name != name)
      && (forall k :: 0 <= k < r.index.value + 1 ==> files[k].fullpath in fs.files)
    ensures r.index.Ok? && DistinctNames(files) ==>
      forall k :: 0 <= k < r.index.value + 1 ==> files[k].fullpath in fs.files && RecordOf(fs, files[k], sum) in r.store.history
    ensures r.index.Ok? ==>
      (forall x :: x in st.history && (forall k :: 0 <= k < r.index.value + 1 ==> files[k].name != x.filename) ==> x in r.store.history)
  {
    match FindFile(files, name, 0)
    case None => Skipped(st, Err(UnknownSkipTarget(name)))
    case Some(index) =>
      var r := UpsertFrom(st, fs, files, 0, index + 1, sum);
      if r.outcome.Fail? then Skipped(r.store, Err(r.outcome.error))
      else Skipped(r.store, Ok(index))
  }

  /** A skip target that names a catalog file is skipped to exactly when every
      file up to and including it can be read. */
  lemma SkipToSucceeds(st: Store, fs: FileSystem, files: seq<CatalogFile>, name: string, sum: Hasher)
    requires FindFile(files, name, 0).Some?
    ensures SkipTo(st, fs, files, name, sum).index.Ok? <==>
      forall k :: 0 <= k <= FindFile(files, name, 0).value ==> files[k].fullpath in fs.files
  {
    var index := FindFile(files, name, 0).value;
    var r := UpsertFrom(st, fs, files, 0, index + 1, sum);
    assert SkipTo(st, fs, files, name, sum).index.Ok? <==> r.outcome.Pass?;
  }

  /** skip: the directory part of the target is stripped before it is looked up. */
  function Skip(st: Store, fs: FileSystem, files: seq<CatalogFile>, target: string, sum: Hasher): (r: Skipped)
    ensures r == SkipTo(st, fs, files, Base(target), sum)
    ensures r.index.Ok? ==> r.index.value < |files| && files[r.index.value].name == Base(target)
    ensures r.index == Err(UnknownSkipTarget(Base(target))) <==>
      forall k :: 0 <= k < |files| ==> files[k].name != Base(target)
  {
    SkipTo(st, fs, files, Base(target), sum)
  }

  /** Upserting rows whose names the history does not hold yet appends them, in
      catalog order. */
  lemma {:induction false} UpsertFromFresh(st: Store, fs: FileSystem, files: seq<CatalogFile>, i: nat, hi: nat, sum: Hasher)
    requires i <= hi <= |files| && DistinctNames(files)
    requires forall x, k :: x in st.history && i <= k < hi ==> x.filename != files[k].name
    requires UpsertFrom(st, fs, files, i, hi, sum).outcome.Pass?
    ensures Appended(st.history, UpsertFrom(st, fs, files, i, hi, sum).store.history, fs, files, i, hi, sum)
    decreases hi - i
  {
    var h0 := st.history;
    AppendedNone(h0, fs, files, i, sum);
    if i < hi {
      var rec := RecordOf(fs, files[i], sum);
      assert !exists j :: 0 <= j < |h0| && h0[j].filename == rec.filename by {
        forall j | 0 <= j < |h0| ensures h0[j].filename != rec.filename {
          assert h0[j] in h0;
        }
      }
      var st' := st.(history := h0 + [rec]);
      assert Upsert(h0, rec) == h0 + [rec];
      forall x, k | x in st'.history && i + 1 <= k < hi ensures x.filename != files[k].name {
        if x != rec {
          assert x in h0;
        }
      }
      UpsertFromFresh(st', fs, files, i + 1, hi, sum);
      AppendedOne(h0, h0, st'.history, fs, files, i, i, sum);
      AppendedChain(h0, st'.history, UpsertFrom(st', fs, files, i + 1, hi, sum).store.history, fs, files, i, i + 1, hi, sum);
    }
  }

  /** Skipping on a store with no history records exactly the files up to and
      including the target, in catalog order, so the run loop starts right after
      the target. */
  lemma SkipOnFreshHistory(st: Store, fs: FileSystem, files: seq<CatalogFile>, name: string, sum: Hasher)
    requires st.history == [] && DistinctNames(files)
    requires SkipTo(st, fs, files, name, sum).index.Ok?
    ensures var r := SkipTo(st, fs, files, name, sum);
      && |r.store.history| == r.index.value + 1
      && Appended([], r.store.history, fs, files, 0, r.index.value + 1, sum)
  {
    var index := FindFile(files, name, 0).value;
    var r := UpsertFrom(st, fs, files, 0, index + 1, sum);
    assert SkipTo(st, fs, files, name, sum) == Skipped(r.store, Ok(index));
    UpsertFromFresh(st, fs, files, 0, index + 1, sum);
  }

  /** migrationsFromFiles from position `i` on: one history row per catalog file, in
      catalog order, with its content and an empty checksum. */
  function MigrationsFromFiles(fs: FileSystem, files: seq<CatalogFile>, i: nat): (r: Result<seq<Migration>>)
    requires i <= |files|
    ensures r.Ok? <==> forall k :: i <= k < |files| ==> files[k].fullpath in fs.files
    ensures r.Err? ==> exists k :: i <= k < |files| && r.error == ReadFileFailed(files[k].fullpath)
    ensures r.Ok? ==> |r.value| == |files| - i && forall k :: i <= k < |files| ==>
      r.value[k - i] == Migration(files[k].name, "", fs.files[files[k].fullpath], files[k].fullpath)
    decreases |files| - i
  {
    if i == |files| then Ok([])
    else if files[i].fullpath !in fs.files then Err(ReadFileFailed(files[i].fullpath))
    else
      match MigrationsFromFiles(fs, files, i + 1)
      case Err(e) => Err(e)
      case Ok(rest) =>
        Ok([Migration(files[i].name, "", fs.files[files[i].fullpath], files[i].fullpath)] + rest)
  }

  /** UpgradeToV1 as the bootstrap needs it: the history is seeded with the given
      rows, in order, each stored with the checksum of its content (the rows handed
      over carry none), and the version marker advances to 1. */
  function UpgradeToV1(st: Store, ms: seq<Migration>, sum: Hasher): (st': Store)
    ensures st'.version == 1
    ensures |st'.history| == |ms|
    ensures forall k :: 0 <= k < |ms| ==>
      st'.history[k] == Record(ms[k].filename, sum(ms[k].content), ms[k].content)
    ensures st'.executed == st.executed && st'.checkpoints == st.checkpoints
  {
    st.(history := seq(|ms|, k requires 0 <= k < |ms| => Record(ms[k].filename, sum(ms[k].content), ms[k].content)),
        version := 1)
  }

  /** The version gate: a marker above the tool's version is refused, one below 1
      bootstraps the history from the catalog, anything else passes unchanged. */
  function VersionGate(st: Store, fs: FileSystem, files: seq<CatalogFile>, sum: Hasher): (r: Result<Store>)
    ensures st.version > ToolVersion ==> r == Err(UpgradeRequired)
    ensures 1 <= st.version <= ToolVersion ==> r == Ok(st)
    ensures r.Ok? ==> r.value.version == ToolVersion && r.value.executed == st.executed && r.value.checkpoints == st.checkpoints
    ensures st.version < 1 ==> (r.Ok? <==> forall k :: 0 <= k < |files| ==> files[k].fullpath in fs.files)
    ensures st.version < 1 && r.Ok? ==>
      && |r.value.history| == |files|
      && (forall k :: 0 <= k < |files| ==>
            files[k].fullpath in fs.files && r.value.history[k] == RecordOf(fs, files[k], sum))
  {
    if st.version > ToolVersion then Err(UpgradeRequired)
    else if st.version < 1 then
      match MigrationsFromFiles(fs, files, 0)
      case Err(e) => Err(e)
      case Ok(ms) => Ok(UpgradeToV1(st, ms, sum))
    else Ok(st)
  }

  /** What New leaves: the store (which skip and the bootstrap may have written to,
      even when opening fails later) and the engine, or the error. */
  datatype Opened = Opened(store: Store, engine: Result<Engine>)

  /** The catalog New works on: read, then sorted. */
  function Catalogue(fs: FileSystem, dir: string, dbt: string): (r: Result<seq<CatalogFile>>)
    ensures r.Ok? <==> ReadDir(fs, dir, dbt).Ok? && SortFiles(ReadDir(fs, dir, dbt).value).Ok?
    ensures ReadDir(fs, dir, dbt).Err? ==> r == Err(ReadDir(fs, dir, dbt).error)
    ensures r.Ok? ==> multiset(r.value) == multiset(ReadDir(fs, dir, dbt).value)
    ensures r.Ok? ==> DistinctNames(r.value) && |r.value| > 0 && StrictlyIncreasing(Key, r.value)
  {
    match ReadDir(fs, dir, dbt)
    case Err(e) => Err(e)
    case Ok(files) =>
      match SortFiles(files)
      case Err(e) => Err(e)
      case Ok(sorted) =>
        SortedNamesDistinct(files);
        assert |sorted| == |multiset(sorted)| == |files|;
        Ok(sorted)
  }

  /** The skip offset step of New: none without a target. */
  function SkipStep(st: Store, fs: FileSystem, files: seq<CatalogFile>, skip: string, sum: Hasher): (r: Skipped)
    ensures skip == "" ==> r == Skipped(st, Ok(0))
    ensures skip != "" ==> r == Skip(st, fs, files, skip, sum)
    ensures r.store.executed == st.executed && r.store.checkpoints == st.checkpoints && r.store.version == st.version
    ensures r.index.Err? ==> skip != "" && (r.index.error.UnknownSkipTarget? || r.index.error.ReadFileFailed?)
    ensures skip != "" && r.index.Ok? ==> r.index.value < |files| && files[r.index.value].name == Base(skip)
  {
    if skip == "" then Skipped(st, Ok(0)) else Skip(st, fs, files, skip, sum)
  }

  /** New: build the catalog, pass the version gate, skip ahead when asked, load the
      history with resolved paths and validate it. Nothing is executed. */
  function New(st: Store, fs: FileSystem, dbt: string, dir: string, skip: string, sum: Hasher): (r: Opened)
    ensures r.store.executed == st.executed && r.store.checkpoints == st.checkpoints
    ensures Catalogue(fs, dir, dbt).Err? ==> r == Opened(st, Err(Catalogue(fs, dir, dbt).error))
    ensures Catalogue(fs, dir, dbt).Ok? && st.version > ToolVersion ==> r == Opened(st, Err(UpgradeRequired))
    ensures Catalogue(fs, dir, dbt).Ok? ==>
      var g := VersionGate(st, fs, Catalogue(fs, dir, dbt).value, sum);
      g.Err? ==> r == Opened(st, Err(g.error))
    ensures Catalogue(fs, dir, dbt).Ok? && VersionGate(st, fs, Catalogue(fs, dir, dbt).value, sum).Ok? ==>
      var files := Catalogue(fs, dir, dbt).value;
      var s := SkipStep(VersionGate(st, fs, files, sum).value, fs, files, skip, sum);
      && r.store == s.store
      && (s.index.Err? ==> r.engine == Err(s.index.error))
      && (s.index.Ok? && OverrideSet(fs, dir, dbt).Ok? ==>
            var e := Engine(Resolve(dir, OverrideSet(fs, dir, dbt).value, s.store.history), files, s.index.value);
            ValidHistory(e, fs, sum).Fail? ==> r.engine == Err(ValidHistory(e, fs, sum).error))
    ensures r.engine.Ok? ==>
      && Catalogue(fs, dir, dbt).Ok?
      && OverrideSet(fs, dir, dbt).Ok?
      && r.engine.value.files == Catalogue(fs, dir, dbt).value
      && r.engine.value.migrations == Resolve(dir, OverrideSet(fs, dir, dbt).value, r.store.history)
      && ValidHistory(r.engine.value, fs, sum).Pass?
      && r.store.version == ToolVersion
    ensures r.engine.Ok? && skip == "" ==> r.engine.value.idx == 0
    ensures r.engine.Ok? && skip != "" ==>
      r.engine.value.idx < |r.engine.value.files| && r.engine.value.files[r.engine.value.idx].name == Base(skip)
  {
    match Catalogue(fs, dir, dbt)
    case Err(e) => Opened(st, Err(e))
    case Ok(files) =>
      match VersionGate(st, fs, files, sum)
      case Err(e) => Opened(st, Err(e))
      case Ok(st1) =>
        var s := SkipStep(st1, fs, files, skip, sum);
        match s.index
        case Err(e) => Opened(s.store, Err(e))
        case Ok(idx) =>
          match OverrideSet(fs, dir, dbt)
          case Err(e) => Opened(s.store, Err(e))
          case Ok(overrides) =>
            var e := Engine(Resolve(dir, overrides, s.store.history), files, idx);
            match ValidHistory(e, fs, sum)
            case Fail(err) => Opened(s.store, Err(err))
            case Pass => Opened(s.store, Ok(e))
  }

  /** A successfully sorted catalog has no two files of the same name: the sort
      key depends on the name alone and sorted keys are distinct. */
  lemma SortedNamesDistinct(files: seq<CatalogFile>)
    requires SortFiles(files).Ok?
    ensures DistinctNames(SortFiles(files).value)
  {
    var sorted := SortFiles(files).value;
    if |files| >= 2 {
      forall a, b | 0 <= a < b < |sorted| ensures sorted[a].name != sorted[b].name {
        assert Key(sorted[a]) < Key(sorted[b]);
      }
    }
  }

  /** The path a history row resolves to is the path the catalog reads the file of
      that name from: both come from the same override set. */
  lemma ResolveMatchesCatalog(fs: FileSystem, dir: string, dbt: string, f: CatalogFile)
    requires ReadDir(fs, dir, dbt).Ok? && OverrideSet(fs, dir, dbt).Ok?
    requires f in ReadDir(fs, dir, dbt).value
    ensures ResolvePath(dir, OverrideSet(fs, dir, dbt).value, f.name) == f.fullpath
  {
    var files := ReadDir(fs, dir, dbt).value;
    var i :| 0 <= i < |files| && files[i] == f;
    assert Names(files)[i] == f.name;
    OverrideWins(fs, dir, dbt, i);
  }

  /** After New, every catalog file resolves, by name, to its own path. */
  lemma OpenedPathsMatch(st: Store, fs: FileSystem, dbt: string, dir: string, skip: string, sum: Hasher)
    requires New(st, fs, dbt, dir, skip, sum).engine.Ok?
    ensures var e := New(st, fs, dbt, dir, skip, sum).engine.value;
      forall k :: 0 <= k < |e.files| ==>
        ResolvePath(dir, OverrideSet(fs, dir, dbt).value, e.files[k].name) == e.files[k].fullpath
  {
    var e := New(st, fs, dbt, dir, skip, sum).engine.value;
    forall k | 0 <= k < |e.files|
      ensures ResolvePath(dir, OverrideSet(fs, dir, dbt).value, e.files[k].name) == e.files[k].fullpath
    {
      assert e.files[k] in multiset(e.files);
      ResolveMatchesCatalog(fs, dir, dbt, e.files[k]);
    }
  }

  /** Opening, then migrating to completion, leaves a store whose history the next
      opening of the same directory accepts, with one row per catalog file. */
  lemma CompletedRunReopens(st: Store, fs: FileSystem, dbt: string, dir: string, skip: string,
                            rejects: Rejects, sum: Hasher)
    requires New(st, fs, dbt, dir, skip, sum).engine.Ok?
    requires var o := New(st, fs, dbt, dir, skip, sum);
      Migrate(o.engine.value, o.store, fs, rejects, sum).run.outcome.Pass?
    ensures var o := New(st, fs, dbt, dir, skip, sum);
      var e := o.engine.value;
      var h := Migrate(e, o.store, fs, rejects, sum).run.store.history;
      && |h| == |e.files|
      && ValidHistory(Engine(Resolve(dir, OverrideSet(fs, dir, dbt).value, h), e.files, e.idx), fs, sum).Pass?
  {
    var o := New(st, fs, dbt, dir, skip, sum);
    var e := o.engine.value;
    var ov := OverrideSet(fs, dir, dbt).value;
    OpenedPathsMatch(st, fs, dbt, dir, skip, sum);
    if |e.migrations| < |e.files| {
      CompletedRunValidates(e, o.store, fs, dir, ov, rejects, sum);
    } else {
      assert |e.migrations| == |e.files|;
    }
  }

  /** The bootstrap of a store that predates the bookkeeping version: when every
      catalog file can be read, opening without a skip target succeeds, and the
      seeded history, one row per catalog file, passes validation. */
  lemma BootstrapOpens(st: Store, fs: FileSystem, dbt: string, dir: string, sum: Hasher)
    requires st.version < 1
    requires Catalogue(fs, dir, dbt).Ok?
    requires forall k :: 0 <= k < |Catalogue(fs, dir, dbt).value| ==>
      Catalogue(fs, dir, dbt).value[k].fullpath in fs.files
    ensures var r := New(st, fs, dbt, dir, "", sum);
      && r.engine.Ok?
      && |r.store.history| == |Catalogue(fs, dir, dbt).value|
      && r.store.version == ToolVersion
  {
    var files := Catalogue(fs, dir, dbt).value;
    var st1 := VersionGate(st, fs, files, sum).value;
    assert OverrideSet(fs, dir, dbt).Ok?;
    var ov := OverrideSet(fs, dir, dbt).value;
    var e := Engine(Resolve(dir, ov, st1.history), files, 0);
    forall k | 0 <= k < |e.migrations| ensures Intact(e.migrations[k], files[k], fs, sum) {
      assert files[k] in multiset(files);
      ResolveMatchesCatalog(fs, dir, dbt, files[k]);
      assert st1.history[k] == RecordOf(fs, files[k], sum);
    }
    assert ValidHistory(e, fs, sum).Pass?;
  }

  /** Opening succeeds whenever its steps do: a catalog, the version gate (with
      its bootstrap for a store that predates versioning), a skip offset, and a
      history that validates against them. The engine holds that history with
      resolved paths, and the store is the one skip left. */
  lemma NewOpens(st: Store, fs: FileSystem, dbt: string, dir: string, skip: string, sum: Hasher)
    requires Catalogue(fs, dir, dbt).Ok?
    requires VersionGate(st, fs, Catalogue(fs, dir, dbt).value, sum).Ok?
    requires SkipStep(VersionGate(st, fs, Catalogue(fs, dir, dbt).value, sum).value,
                      fs, Catalogue(fs, dir, dbt).value, skip, sum).index.Ok?
    requires var s := SkipStep(VersionGate(st, fs, Catalogue(fs, dir, dbt).value, sum).value,
                               fs, Catalogue(fs, dir, dbt).value, skip, sum);
      ValidHistory(Engine(Resolve(dir, OverrideSet(fs, dir, dbt).value, s.store.history),
                          Catalogue(fs, dir, dbt).value, s.index.value), fs, sum).Pass?
    ensures var s := SkipStep(VersionGate(st, fs, Catalogue(fs, dir, dbt).value, sum).value,
                              fs, Catalogue(fs, dir, dbt).value, skip, sum);
      New(st, fs, dbt, dir, skip, sum) ==
        Opened(s.store, Ok(Engine(Resolve(dir, OverrideSet(fs, dir, dbt).value, s.store.history),
                                  Catalogue(fs, dir, dbt).value, s.index.value)))
  {
  }

  /** A history seeded with the row of every catalog file, in catalog order. */
  predicate Seeded(h: seq<Record>, fs: FileSystem, files: seq<CatalogFile>, sum: Hasher)
  {
    && |h| == |files|
    && forall k :: 0 <= k < |files| ==> files[k].fullpath in fs.files && h[k] == RecordOf(fs, files[k], sum)
  }

  /** The bootstrap of a store that predates the bookkeeping version seeds the
      history with the row of every catalog file, when every one can be read. */
  lemma BootstrapSeeds(st: Store, fs: FileSystem, files: seq<CatalogFile>, sum: Hasher)
    requires st.version < 1
    requires forall k :: 0 <= k < |files| ==> files[k].fullpath in fs.files
    ensures VersionGate(st, fs, files, sum).Ok?
    ensures Seeded(VersionGate(st, fs, files, sum).value.history, fs, files, sum)
  {
  }

  /** Upserting a catalog file's row into a history already seeded with it
      changes nothing: the row is stored under that name alone. */
  lemma UpsertSeeded(h: seq<Record>, fs: FileSystem, files: seq<CatalogFile>, i: nat, sum: Hasher)
    requires DistinctNames(files) && Seeded(h, fs, files, sum) && i < |files|
    ensures Upsert(h, RecordOf(fs, files[i], sum)) == h
  {
    var rec := RecordOf(fs, files[i], sum);
    assert h[i].filename == rec.filename;
    forall j | 0 <= j < |h| ensures (if h[j].filename == rec.filename then rec else h[j]) == h[j] {
      if h[j].filename == rec.filename {
        assert files[j].name == files[i].name;
      }
    }
  }

  /** The skip loop over readable files whose rows the history already holds, so
      that upserting them changes nothing, records nothing new and succeeds. */
  lemma {:induction false} UpsertFromHeld(st: Store, fs: FileSystem, files: seq<CatalogFile>, i: nat, hi: nat, sum: Hasher)
    requires i <= hi <= |files|
    requires forall k :: i <= k < hi ==>
      files[k].fullpath in fs.files && Upsert(st.history, RecordOf(fs, files[k], sum)) == st.history
    ensures UpsertFrom(st, fs, files, i, hi, sum) == Run(st, Pass)
    decreases hi - i
  {
    if i < hi {
      assert st.(history := Upsert(st.history, RecordOf(fs, files[i], sum))) == st;
      UpsertFromHeld(st, fs, files, i + 1, hi, sum);
    }
  }

  /** Skipping over a seeded history with distinct catalog names leaves the store
      as it was and yields the target's position. */
  lemma SkipOverSeeded(st: Store, fs: FileSystem, files: seq<CatalogFile>, skip: string, sum: Hasher)
    requires DistinctNames(files) && Seeded(st.history, fs, files, sum)
    requires skip != "" && FindFile(files, Base(skip), 0).Some?
    ensures SkipStep(st, fs, files, skip, sum) == Skipped(st, Ok(FindFile(files, Base(skip), 0).value))
  {
    var idx := FindFile(files, Base(skip), 0).value;
    assert UpsertFrom(st, fs, files, 0, idx + 1, sum) == Run(st, Pass) by {
      forall k | 0 <= k < idx + 1
        ensures files[k].fullpath in fs.files && Upsert(st.history, RecordOf(fs, files[k], sum)) == st.history
      {
        UpsertSeeded(st.history, fs, files, k, sum);
      }
      UpsertFromHeld(st, fs, files, 0, idx + 1, sum);
    }
    assert SkipTo(st, fs, files, Base(skip), sum) == Skipped(st, Ok(idx));
  }

  /** A seeded history, loaded with resolved paths, validates against the catalog
      from any skip offset. */
  lemma SeededValidates(fs: FileSystem, dir: string, dbt: string, h: seq<Record>, idx: nat, sum: Hasher)
    requires Catalogue(fs, dir, dbt).Ok?
    requires Seeded(h, fs, Catalogue(fs, dir, dbt).value, sum)
    ensures OverrideSet(fs, dir, dbt).Ok?
    ensures ValidHistory(Engine(Resolve(dir, OverrideSet(fs, dir, dbt).value, h), Catalogue(fs, dir, dbt).value, idx),
                         fs, sum).Pass?
  {
    var files := Catalogue(fs, dir, dbt).value;
    assert OverrideSet(fs, dir, dbt).Ok?;
    var e := Engine(Resolve(dir, OverrideSet(fs, dir, dbt).value, h), files, idx);
    forall k | 0 <= k < |e.migrations| ensures Intact(e.migrations[k], files[k], fs, sum) {
      assert files[k] in multiset(files);
      ResolveMatchesCatalog(fs, dir, dbt, files[k]);
    }
  }

  /** The bootstrap followed by a skip: a store that predates the bookkeeping
      version, opened with a skip target naming a catalog file, opens when every
      catalog file can be read. The skip records nothing beyond the seeded
      history, and the offset is the target's position. */
  lemma BootstrapSkipOpens(st: Store, fs: FileSystem, dbt: string, dir: string, skip: string, sum: Hasher,
                           files: seq<CatalogFile>, idx: nat)
    requires st.version < 1
    requires Catalogue(fs, dir, dbt) == Ok(files)
    requires forall k :: 0 <= k < |files| ==> files[k].fullpath in fs.files
    requires skip != "" && FindFile(files, Base(skip), 0) == Some(idx)
    ensures OverrideSet(fs, dir, dbt).Ok? && VersionGate(st, fs, files, sum).Ok?
    ensures var st1 := VersionGate(st, fs, files, sum).value;
      && |st1.history| == |files|
      && New(st, fs, dbt, dir, skip, sum) ==
           Opened(st1, Ok(Engine(Resolve(dir, OverrideSet(fs, dir, dbt).value, st1.history), files, idx)))
  {
    BootstrapSeeds(st, fs, files, sum);
    var st1 := VersionGate(st, fs, files, sum).value;
    SkipOverSeeded(st1, fs, files, skip, sum);
    SeededValidates(fs, dir, dbt, st1.history, idx, sum);
    NewOpens(st, fs, dbt, dir, skip, sum);
  }

  /** Opening refuses a store at the current bookkeeping version whose history,
      from the skip offset on, names a file out of catalog order, or whose file is
      missing or no longer has the recorded checksum. */
  lemma TamperedHistoryRefused(st: Store, fs: FileSystem, dbt: string, dir: string, skip: string,
                               sum: Hasher, k: nat)
    requires 1 <= st.version <= ToolVersion
    requires Catalogue(fs, dir, dbt).Ok?
    requires var s := SkipStep(st, fs, Catalogue(fs, dir, dbt).value, skip, sum);
      && s.index.Ok? && s.index.value <= k < |s.store.history| && k < |Catalogue(fs, dir, dbt).value|
    requires var s := SkipStep(st, fs, Catalogue(fs, dir, dbt).value, skip, sum);
      var f := Catalogue(fs, dir, dbt).value[k];
      || s.store.history[k].filename != f.name
      || f.fullpath !in fs.files
      || sum(fs.files[f.fullpath]) != s.store.history[k].checksum
    ensures New(st, fs, dbt, dir, skip, sum).engine.Err?
  {
    var files := Catalogue(fs, dir, dbt).value;
    var s := SkipStep(st, fs, files, skip, sum);
    var e := Engine(Resolve(dir, OverrideSet(fs, dir, dbt).value, s.store.history), files, s.index.value);
    assert VersionGate(st, fs, files, sum) == Ok(st);
    assert ValidHistory(e, fs, sum).Fail? by {
      assert files[k] in multiset(files);
      ResolveMatchesCatalog(fs, dir, dbt, files[k]);
      assert !Intact(e.migrations[k], e.files[k], fs, sum);
    }
  }
}

=== FILE: errors.dfy ===
/** Failure values of the migration engine and the result wrappers that carry them.
    Error kinds follow the engine's failure taxonomy; messages are not modelled. */
module Errors {

  datatype Option<+T> = None | Some(value: T)

  datatype Error =
    // configuration
    | ReadDirFailed(dir: string)
    | NoSqlFiles(dir: string)
    | ReadFileFailed(path: string)
    | BadFileName(name: string)
    | DuplicateNumber(number: nat)
    // version
    | UpgradeRequired
    // usage
    | UnknownSkipTarget(name: string)
    | UnterminatedBlock
    | NoStatements(file: string)
    // integrity
    | MissingMigrations
    | NotAppended(index: nat)
    | FileChecksumMismatch(file: string)
    | TooManyCheckpoints(checkpoints: nat, statements: nat)
    | CheckpointMismatch(file: string, index: nat)
    // execution
    | ExecFailed(file: string, index: nat)

  /** A value or the error that prevented computing it. */
  datatype Result<+T> = Ok(value: T) | Err(error: Error)

  /** Success or the error that stopped the operation. */
  datatype Outcome = Pass | Fail(error: Error)
}

=== FILE: executor.dfy ===
/** Checkpointed execution of one migration file (migrate.go, migrateFile, second
    half): statements already covered by checkpoints are only re-verified by
    checksum, the rest are executed in order, each followed by a checkpoint, and a
    completed file trades its checkpoints for one history record. */
module Executor {
  import opened Errors
  import opened Model
  import opened Splitter

  /** The store's verdict on Exec, which the engine cannot predict: the
      (file name, statement position) pairs whose execution the database refuses. */
  type Rejects = set<(string, nat)>

  /** The store after an operation, and how the operation ended. */
  datatype Run = Run(store: Store, outcome: Outcome)

  /** The first checkpointed position, at or after `i`, whose statement no longer
      has the recorded checksum. */
  function FirstMismatch(stmts: seq<string>, sums: seq<string>, sum: Hasher, i: nat): (r: Option<nat>)
    requires |sums| <= |stmts| && i <= |sums|
    ensures r.None? <==> forall k :: i <= k < |sums| ==> sum(stmts[k]) == sums[k]
    ensures r.Some? ==> i <= r.value < |sums| && sum(stmts[r.value]) != sums[r.value]
    ensures r.Some? ==> forall k :: i <= k < r.value ==> sum(stmts[k]) == sums[k]
    decreases |sums| - i
  {
    if i == |sums| then None
    else if sum(stmts[i]) != sums[i] then Some(i)
    else FirstMismatch(stmts, sums, sum, i + 1)
  }

  /** Executes the statements from position `i` on, writing a checkpoint after each
      one the database accepts, and stops at the first one it refuses. */
  function ExecFrom(st: Store, file: string, stmts: seq<string>, i: nat, rejects: Rejects, sum: Hasher): (r: Run)
    requires i <= |stmts|
    ensures |st.executed| <= |r.store.executed| <= |st.executed| + |stmts| - i
    ensures var j := i + |r.store.executed| - |st.executed|;
      && r.store.executed == st.executed + stmts[i..j]
      && r.store.checkpoints == st.checkpoints + CheckpointsFor(file, stmts, i, j, sum)
      && r.store.history == st.history
      && r.store.version == st.version
      && (forall k :: i <= k < j ==> (file, k) !in rejects)
      && (r.outcome.Pass? <==> j == |stmts|)
      && (r.outcome.Fail? ==> (file, j) in rejects && r.outcome.error == ExecFailed(file, j))
    decreases |stmts| - i
  {
    if i == |stmts| then Run(st, Pass)
    else if (file, i) in rejects then Run(st, Fail(ExecFailed(file, i)))
    else
      var cp := Checkpoint(file, i, stmts[i], sum(stmts[i]));
      var st' := st.(executed := st.executed + [stmts[i]], checkpoints := st.checkpoints + [cp]);
      var r := ExecFrom(st', file, stmts, i + 1, rejects, sum);
      ExecStep(st.executed, st.checkpoints, file, stmts, i, i + 1 + |r.store.executed| - |st'.executed|, sum);
      r
  }

  /** Executing statement i and then those up to j is executing those from i up
      to j, for the log and for the checkpoint table alike. */
  lemma ExecStep(executed: seq<string>, cps: seq<Checkpoint>, file: string, stmts: seq<string>,
                 i: nat, j: nat, sum: Hasher)
    requires i < j <= |stmts|
    ensures (executed + [stmts[i]]) + stmts[i + 1..j] == executed + stmts[i..j]
    ensures (cps + [Checkpoint(file, i, stmts[i], sum(stmts[i]))]) + CheckpointsFor(file, stmts, i + 1, j, sum)
         == cps + CheckpointsFor(file, stmts, i, j, sum)
  {
    assert stmts[i..j] == [stmts[i]] + stmts[i + 1..j];
    assert CheckpointsFor(file, stmts, i, j, sum)
        == [Checkpoint(file, i, stmts[i], sum(stmts[i]))] + CheckpointsFor(file, stmts, i + 1, j, sum);
  }

  /** migrateFile after splitting: check the checkpoints of `file` against its
      statements, execute the remaining ones and record the completed file. */
  function RunStatements(st: Store, file: string, content: string, stmts: seq<string>, rejects: Rejects, sum: Hasher): (r: Run)
    ensures r.store.version == st.version
    ensures st.executed <= r.store.executed
    ensures r.outcome.Fail? ==> r.store.history == st.history
    ensures r.outcome.Fail? ==>
      r.outcome.error.TooManyCheckpoints?
      || (r.outcome.error.CheckpointMismatch? && r.outcome.error.file == file)
      || (r.outcome.error.ExecFailed? && r.outcome.error.file == file)
    ensures r.outcome.Pass? ==>
      && r.store.checkpoints == []
      && r.store.history == st.history + [Record(file, sum(content), content)]
  {
    var sums := CheckpointSums(st.checkpoints, file);
    if |sums| >= |stmts| then Run(st, Fail(TooManyCheckpoints(|sums|, |stmts|)))
    else
      match FirstMismatch(stmts, sums, sum, 0)
      case Some(i) => Run(st, Fail(CheckpointMismatch(file, i)))
      case None =>
        var r := ExecFrom(st, file, stmts, |sums|, rejects, sum);
        if r.outcome.Fail? then r
        else Run(InsertRecord(r.store.(checkpoints := []), Record(file, sum(content), content)), Pass)
  }

  /** The errors migrateFile can stop with on file `f`: its read failing, its
      split failing, or a checkpoint or execution failure that names it. */
  predicate FailsOn(e: Error, f: CatalogFile)
  {
    || e == ReadFileFailed(f.fullpath)
    || e == UnterminatedBlock
    || e == NoStatements(f.name)
    || e.TooManyCheckpoints?
    || (e.CheckpointMismatch? && e.file == f.name)
    || (e.ExecFailed? && e.file == f.name)
  }

  /** migrateFile: read the file, split it into statements, then run them. */
  function MigrateFile(st: Store, fs: FileSystem, f: CatalogFile, rejects: Rejects, sum: Hasher): (r: Run)
    ensures r.store.version == st.version
    ensures st.executed <= r.store.executed
    ensures r.outcome.Fail? ==> r.store.history == st.history
    ensures r.outcome.Pass? ==>
      && f.fullpath in fs.files
      && r.store.checkpoints == []
      && r.store.history == st.history + [Record(f.name, sum(fs.files[f.fullpath]), fs.files[f.fullpath])]
    ensures f.fullpath in fs.files && SplitStatements(f.name, fs.files[f.fullpath]).Ok? ==>
      r == RunStatements(st, f.name, fs.files[f.fullpath], SplitStatements(f.name, fs.files[f.fullpath]).value, rejects, sum)
    ensures r.outcome.Fail? ==> FailsOn(r.outcome.error, f)
  {
    if f.fullpath !in fs.files then Run(st, Fail(ReadFileFailed(f.fullpath)))
    else
      var content := fs.files[f.fullpath];
      match SplitStatements(f.name, content)
      case Err(e) => Run(st, Fail(e))
      case Ok(stmts) => RunStatements(st, f.name, content, stmts, rejects, sum)
  }

  /** A file that cannot be read or split fails without touching the store. */
  lemma MigrateFileUnsplittable(st: Store, fs: FileSystem, f: CatalogFile, rejects: Rejects, sum: Hasher)
    requires f.fullpath !in fs.files || SplitStatements(f.name, fs.files[f.fullpath]).Err?
    ensures MigrateFile(st, fs, f, rejects, sum).store == st
    ensures MigrateFile(st, fs, f, rejects, sum).outcome.Fail?
  {
  }

  /** Before anything runs: with at least as many checkpoints as statements, or a
      checkpointed statement whose checksum changed, the file fails and the store is
      left exactly as it was. */
  lemma GuardsRunFirst(st: Store, file: string, content: string, stmts: seq<string>, rejects: Rejects, sum: Hasher)
    ensures var sums := CheckpointSums(st.checkpoints, file);
      |sums| >= |stmts| ==> RunStatements(st, file, content, stmts, rejects, sum) == Run(st, Fail(TooManyCheckpoints(|sums|, |stmts|)))
    ensures var sums := CheckpointSums(st.checkpoints, file);
      forall i :: 0 <= i < |sums| < |stmts| && sum(stmts[i]) != sums[i]
        && (forall k :: 0 <= k < i ==> sum(stmts[k]) == sums[k])
        ==> RunStatements(st, file, content, stmts, rejects, sum) == Run(st, Fail(CheckpointMismatch(file, i)))
  {
    var sums := CheckpointSums(st.checkpoints, file);
    if |sums| < |stmts| {
      var m := FirstMismatch(stmts, sums, sum, 0);
      forall i | 0 <= i < |sums| && sum(stmts[i]) != sums[i] && (forall k :: 0 <= k < i ==> sum(stmts[k]) == sums[k])
        ensures m == Some(i)
      {
      }
    }
  }

  /** Once the checkpoints check out, exactly the statements from position k (the
      number of checkpoints) on are executed, in order, up to the first one the
      database refuses; each accepted one is followed by its checkpoint. */
  lemma ExecutesUncheckpointedSuffix(st: Store, file: string, content: string, stmts: seq<string>, rejects: Rejects, sum: Hasher)
    requires |CheckpointSums(st.checkpoints, file)| < |stmts|
    requires var sums := CheckpointSums(st.checkpoints, file);
      forall i :: 0 <= i < |sums| ==> sum(stmts[i]) == sums[i]
    ensures var k := |CheckpointSums(st.checkpoints, file)|;
      var r := RunStatements(st, file, content, stmts, rejects, sum);
      var j := k + |r.store.executed| - |st.executed|;
      && k <= j <= |stmts|
      && r.store.executed == st.executed + stmts[k..j]
      && (forall i :: k <= i < j ==> (file, i) !in rejects)
      && (r.outcome.Pass? <==> j == |stmts|)
      && (r.outcome.Fail? ==>
            && r.outcome.error == ExecFailed(file, j)
            && (file, j) in rejects
            && r.store.checkpoints == st.checkpoints + CheckpointsFor(file, stmts, k, j, sum))
  {
    var sums := CheckpointSums(st.checkpoints, file);
    assert FirstMismatch(stmts, sums, sum, 0).None?;
  }

  /** The checkpoints a run leaves behind when the database refuses statement j:
      one per statement before j, each carrying that statement's checksum. */
  lemma FailedRunCheckpoints(st: Store, file: string, content: string, stmts: seq<string>, rejects: Rejects, sum: Hasher, j: nat)
    requires RunStatements(st, file, content, stmts, rejects, sum).outcome == Fail(ExecFailed(file, j))
    ensures var k := |CheckpointSums(st.checkpoints, file)|;
      var st1 := RunStatements(st, file, content, stmts, rejects, sum).store;
      && k <= j < |stmts|
      && st1.executed == st.executed + stmts[k..j]
      && st1.history == st.history
      && |CheckpointSums(st1.checkpoints, file)| == j
      && CheckpointsMatch(stmts, CheckpointSums(st1.checkpoints, file), sum)
  {
    var sums := CheckpointSums(st.checkpoints, file);
    var k := |sums|;
    var r := FailedRunIsExec(st, file, content, stmts, rejects, sum, j);
    assert r.store.checkpoints == st.checkpoints + CheckpointsFor(file, stmts, k, j, sum);
    ExtendedCheckpointsMatch(st.checkpoints, file, stmts, k, j, sum);
  }

  /** A run refused at statement j got past the checkpoint guards and executed
      from the k-th statement on. */
  lemma FailedRunIsExec(st: Store, file: string, content: string, stmts: seq<string>, rejects: Rejects, sum: Hasher, j: nat)
    returns (r: Run)
    requires RunStatements(st, file, content, stmts, rejects, sum).outcome == Fail(ExecFailed(file, j))
    ensures var k := |CheckpointSums(st.checkpoints, file)|;
      && k <= j < |stmts|
      && CheckpointsMatch(stmts, CheckpointSums(st.checkpoints, file), sum)
      && r == RunStatements(st, file, content, stmts, rejects, sum)
      && r.store.executed == st.executed + stmts[k..j]
      && r.store.history == st.history
      && r.store.checkpoints == st.checkpoints + CheckpointsFor(file, stmts, k, j, sum)
  {
    var sums := CheckpointSums(st.checkpoints, file);
    var k := |sums|;
    assert k < |stmts| && FirstMismatch(stmts, sums, sum, 0).None?;
    r := ExecFrom(st, file, stmts, k, rejects, sum);
    assert RunStatements(st, file, content, stmts, rejects, sum) == r;
  }

  /** Appending the rows for statements k up to j to checkpoints that match the
      first k statements gives checkpoints that match the first j. */
  lemma ExtendedCheckpointsMatch(cps: seq<Checkpoint>, file: string, stmts: seq<string>, k: nat, j: nat, sum: Hasher)
    requires k <= j <= |stmts|
    requires |CheckpointSums(cps, file)| == k && CheckpointsMatch(stmts, CheckpointSums(cps, file), sum)
    ensures |CheckpointSums(cps + CheckpointsFor(file, stmts, k, j, sum), file)| == j
    ensures CheckpointsMatch(stmts, CheckpointSums(cps + CheckpointsFor(file, stmts, k, j, sum), file), sum)
  {
    var added := CheckpointsFor(file, stmts, k, j, sum);
    CheckpointSumsAppend(cps, added, file);
    CheckpointSumsFor(file, stmts, k, j, sum);
    var sums0 := CheckpointSums(cps, file);
    var more := CheckpointSums(added, file);
    var sums1 := CheckpointSums(cps + added, file);
    assert sums1 == sums0 + more;
    forall i | 0 <= i < j ensures sum(stmts[i]) == sums1[i] {
      if i >= k {
        assert sums1[i] == more[i - k];
      }
    }
  }

  /** When the checkpoints check out and the database accepts every remaining
      statement, the file completes having executed exactly those statements. */
  lemma UnrefusedRunCompletes(st: Store, file: string, content: string, stmts: seq<string>, rejects: Rejects, sum: Hasher)
    requires |CheckpointSums(st.checkpoints, file)| < |stmts|
    requires CheckpointsMatch(stmts, CheckpointSums(st.checkpoints, file), sum)
    requires forall i :: |CheckpointSums(st.checkpoints, file)| <= i < |stmts| ==> (file, i) !in rejects
    ensures var r := RunStatements(st, file, content, stmts, rejects, sum);
      && r.outcome == Pass
      && r.store.executed == st.executed + stmts[|CheckpointSums(st.checkpoints, file)|..]
      && r.store.checkpoints == []
      && r.store.history == st.history + [Record(file, sum(content), content)]
  {
    var k := |CheckpointSums(st.checkpoints, file)|;
    ExecutesUncheckpointedSuffix(st, file, content, stmts, rejects, sum);
    var r := RunStatements(st, file, content, stmts, rejects, sum);
    var j := k + |r.store.executed| - |st.executed|;
    assert j == |stmts|;
  }

  /** The second half of a resumption: from a store whose checkpoints cover the
      first j statements, which an earlier run executed after the k checkpointed
      ones, an unrefused run completes the file. */
  lemma ResumeFrom(st: Store, st1: Store, file: string, content: string, stmts: seq<string>,
                   rejects: Rejects, sum: Hasher, k: nat, j: nat)
    requires k <= j < |stmts|
    requires |CheckpointSums(st1.checkpoints, file)| == j
    requires CheckpointsMatch(stmts, CheckpointSums(st1.checkpoints, file), sum)
    requires st1.executed == st.executed + stmts[k..j] && st1.history == st.history
    requires forall i :: j <= i < |stmts| ==> (file, i) !in rejects
    ensures var second := RunStatements(st1, file, content, stmts, rejects, sum);
      && second.outcome == Pass
      && second.store.executed == st.executed + stmts[k..]
      && second.store.checkpoints == []
      && second.store.history == st.history + [Record(file, sum(content), content)]
  {
    UnrefusedRunCompletes(st1, file, content, stmts, rejects, sum);
    var second := RunStatements(st1, file, content, stmts, rejects, sum);
    assert second.store.executed == st1.executed + stmts[j..];
    calc {
      st1.executed + stmts[j..];
      (st.executed + stmts[k..j]) + stmts[j..];
      st.executed + (stmts[k..j] + stmts[j..]);
      { assert stmts[k..j] + stmts[j..] == stmts[k..]; }
      st.executed + stmts[k..];
    }
  }

  /** Resumption after a refused statement: a later run over the unchanged
      statements that the database lets through completes the file, and across both
      runs every statement after the original checkpoints was executed exactly
      once, in order. */
  lemma ResumeCompletesOnce(st: Store, file: string, content: string, stmts: seq<string>,
                            rejects: Rejects, rejects': Rejects, sum: Hasher, j: nat)
    requires RunStatements(st, file, content, stmts, rejects, sum).outcome == Fail(ExecFailed(file, j))
    requires forall i :: j <= i < |stmts| ==> (file, i) !in rejects'
    ensures var k := |CheckpointSums(st.checkpoints, file)|;
      var first := RunStatements(st, file, content, stmts, rejects, sum);
      var second := RunStatements(first.store, file, content, stmts, rejects', sum);
      && second.outcome == Pass
      && second.store.executed == st.executed + stmts[k..]
      && second.store.checkpoints == []
      && second.store.history == st.history + [Record(file, sum(content), content)]
  {
    var k := |CheckpointSums(st.checkpoints, file)|;
    FailedRunCheckpoints(st, file, content, stmts, rejects, sum, j);
    ResumeFrom(st, RunStatements(st, file, content, stmts, rejects, sum).store, file, content, stmts, rejects', sum, k, j);
  }

  /** Editing a statement that a failed run already executed is caught on the
      next run: it fails on a checkpoint checksum before executing anything. */
  lemma EditAfterCheckpointDetected(st: Store, file: string, content: string, stmts: seq<string>,
                                    rejects: Rejects, sum: Hasher, j: nat,
                                    content': string, stmts': seq<string>, rejects': Rejects, e: nat)
    requires RunStatements(st, file, content, stmts, rejects, sum).outcome == Fail(ExecFailed(file, j))
    requires |stmts'| > j
    requires e < j && e < |stmts| && sum(stmts'[e]) != sum(stmts[e])
    ensures var st1 := RunStatements(st, file, content, stmts, rejects, sum).store;
      var second := RunStatements(st1, file, content', stmts', rejects', sum);
      && second.store == st1
      && second.outcome.Fail? && second.outcome.error.CheckpointMismatch?
      && second.outcome.error.index <= e
  {
    var st1 := RunStatements(st, file, content, stmts, rejects, sum).store;
    FailedRunCheckpoints(st, file, content, stmts, rejects, sum, j);
    var sums1 := CheckpointSums(st1.checkpoints, file);
    assert sum(stmts'[e]) != sums1[e];
    var m := FirstMismatch(stmts', sums1, sum, 0);
    assert m.Some?;
  }

  /** A file that lost statements a failed run had executed is refused before
      anything runs. */
  lemma ShrunkFileRefused(st: Store, file: string, content: string, stmts: seq<string>,
                          rejects: Rejects, sum: Hasher, j: nat,
                          content': string, stmts': seq<string>, rejects': Rejects)
    requires RunStatements(st, file, content, stmts, rejects, sum).outcome == Fail(ExecFailed(file, j))
    requires |stmts'| <= j
    ensures var st1 := RunStatements(st, file, content, stmts, rejects, sum).store;
      RunStatements(st1, file, content', stmts', rejects', sum) == Run(st1, Fail(TooManyCheckpoints(j, |stmts'|)))
  {
    FailedRunCheckpoints(st, file, content, stmts, rejects, sum, j);
  }

  /** A catalog file that can be read and split into statements. */
  predicate Splits(fs: FileSystem, f: CatalogFile)
  {
    f.fullpath in fs.files && SplitStatements(f.name, fs.files[f.fullpath]).Ok?
  }

  /** The statements of a file; none when it cannot be read or split. */
  function StatementsOf(fs: FileSystem, f: CatalogFile): seq<string>
  {
    if Splits(fs, f) then SplitStatements(f.name, fs.files[f.fullpath]).value else []
  }

  /** A file the engine can run to the end: readable, splittable, and with no
      statement the database refuses. */
  predicate Runnable(fs: FileSystem, f: CatalogFile, rejects: Rejects)
  {
    && Splits(fs, f)
    && forall j :: 0 <= j < |StatementsOf(fs, f)| ==> (f.name, j) !in rejects
  }

  /** A file the engine can finish from the store's checkpoints: it splits, its
      checkpoint rows are fewer than its statements and record their checksums, and
      the database refuses none of the statements after them. */
  predicate Resumable(st: Store, fs: FileSystem, f: CatalogFile, rejects: Rejects, sum: Hasher)
  {
    && Splits(fs, f)
    && |CheckpointSums(st.checkpoints, f.name)| < |StatementsOf(fs, f)|
    && CheckpointsMatch(StatementsOf(fs, f), CheckpointSums(st.checkpoints, f.name), sum)
    && forall j :: |CheckpointSums(st.checkpoints, f.name)| <= j < |StatementsOf(fs, f)| ==> (f.name, j) !in rejects
  }

  /** A runnable file with no checkpoint rows can be finished from the store. */
  lemma RunnableResumable(st: Store, fs: FileSystem, f: CatalogFile, rejects: Rejects, sum: Hasher)
    requires Runnable(fs, f, rejects)
    requires CheckpointSums(st.checkpoints, f.name) == []
    ensures Resumable(st, fs, f, rejects, sum)
  {
  }

  /** A resumable file completes: exactly the statements after its checkpoints run,
      in order, the checkpoints are cleared and one history row is added. */
  lemma MigrateFileResumes(st: Store, fs: FileSystem, f: CatalogFile, rejects: Rejects, sum: Hasher)
    requires Resumable(st, fs, f, rejects, sum)
    ensures var content := fs.files[f.fullpath];
      var r := MigrateFile(st, fs, f, rejects, sum);
      && r.outcome == Pass
      && r.store.executed == st.executed + StatementsOf(fs, f)[|CheckpointSums(st.checkpoints, f.name)|..]
      && r.store.checkpoints == []
      && r.store.history == st.history + [Record(f.name, sum(content), content)]
  {
    UnrefusedRunCompletes(st, f.name, fs.files[f.fullpath], StatementsOf(fs, f), rejects, sum);
  }

  /** A runnable file without checkpoint rows executes all its statements, in
      order, and completes with one history row. */
  lemma MigrateFileRuns(st: Store, fs: FileSystem, f: CatalogFile, rejects: Rejects, sum: Hasher)
    requires Runnable(fs, f, rejects)
    requires CheckpointSums(st.checkpoints, f.name) == []
    ensures var content := fs.files[f.fullpath];
      var r := MigrateFile(st, fs, f, rejects, sum);
      && r.outcome == Pass
      && r.store.executed == st.executed + SplitStatements(f.name, content).value
      && r.store.checkpoints == []
      && r.store.history == st.history + [Record(f.name, sum(content), content)]
  {
    var content := fs.files[f.fullpath];
    var stmts := StatementsOf(fs, f);
    UnrefusedRunCompletes(st, f.name, content, stmts, rejects, sum);
    assert stmts[0..] == stmts;
  }
}

=== FILE: history.dfy ===
/** The engine's view of what already ran (migrate.go, validHistory, checkHash,
    the fullpath loop of New) and the run loop that migrates what has not
    (migrate.go, Migrate). */
module History {
  import opened Errors
  import opened Model
  import opened Executor

  /** A history row once loaded by the engine: the stored record and the path the
      named file is read from when its checksum is re-checked. */
  datatype Migration = Migration(filename: string, checksum: string, content: string, fullpath: string)

  /** The engine between New and Migrate: the loaded history, the sorted catalog and
      the skip offset (history positions below it are not re-checked). */
  datatype Engine = Engine(migrations: seq<Migration>, files: seq<CatalogFile>, idx: nat)

  /** Where the file behind a history row named `name` is read from: the dialect
      override of that name when there is one, otherwise the migration directory. */
  function ResolvePath(dir: string, overrides: map<string, CatalogFile>, name: string): (p: string)
    ensures name !in overrides ==> p == PathJoin(dir, name)
  {
    if name in overrides then overrides[name].fullpath else PathJoin(dir, name)
  }

  /** The loaded history: every record, in table order, with its path resolved. */
  function Resolve(dir: string, overrides: map<string, CatalogFile>, history: seq<Record>): (ms: seq<Migration>)
    ensures |ms| == |history|
    ensures forall i :: 0 <= i < |history| ==>
      && ms[i].filename == history[i].filename
      && ms[i].checksum == history[i].checksum
      && ms[i].content == history[i].content
      && ms[i].fullpath == ResolvePath(dir, overrides, history[i].filename)
  {
    seq(|history|, i requires 0 <= i < |history| =>
      var h := history[i];
      Migration(h.filename, h.checksum, h.content, ResolvePath(dir, overrides, h.filename)))
  }

  /** A history row is intact against the catalog file at its position: same name,
      and the file it resolves to still has the recorded checksum. */
  predicate Intact(m: Migration, f: CatalogFile, fs: FileSystem, sum: Hasher)
  {
    m.filename == f.name && m.fullpath in fs.files && sum(fs.files[m.fullpath]) == m.checksum
  }

  /** checkHash: the file behind the row must be readable and unchanged. */
  function CheckHash(m: Migration, fs: FileSystem, sum: Hasher): (r: Outcome)
    ensures r.Pass? <==> m.fullpath in fs.files && sum(fs.files[m.fullpath]) == m.checksum
    ensures r.Fail? ==> r.error == ReadFileFailed(m.fullpath) || r.error == FileChecksumMismatch(m.filename)
  {
    if m.fullpath !in fs.files then Fail(ReadFileFailed(m.fullpath))
    else if sum(fs.files[m.fullpath]) != m.checksum then Fail(FileChecksumMismatch(m.filename))
    else Pass
  }

  /** The loop of validHistory from position `i` on. */
  function CheckFrom(e: Engine, fs: FileSystem, sum: Hasher, i: nat): (r: Outcome)
    requires |e.migrations| <= |e.files|
    ensures r.Pass? <==> forall k :: i <= k < |e.migrations| ==> Intact(e.migrations[k], e.files[k], fs, sum)
    ensures r.Fail? ==> r.error.NotAppended? || r.error.ReadFileFailed? || r.error.FileChecksumMismatch?
    ensures r.Fail? && r.error.NotAppended? ==>
      && i <= r.error.index < |e.migrations|
      && e.migrations[r.error.index].filename != e.files[r.error.index].name
      && forall k :: i <= k < r.error.index ==> Intact(e.migrations[k], e.files[k], fs, sum)
    decreases |e.migrations| - i
  {
    if i >= |e.migrations| then Pass
    else if e.migrations[i].filename != e.files[i].name then Fail(NotAppended(i))
    else
      match CheckHash(e.migrations[i], fs, sum)
      case Fail(err) => Fail(err)
      case Pass => CheckFrom(e, fs, sum, i + 1)
  }

  /** validHistory: the history must be a prefix of the catalog, name by name, and
      from the skip offset on every recorded file must still have its checksum. */
  function ValidHistory(e: Engine, fs: FileSystem, sum: Hasher): (r: Outcome)
    ensures |e.files| < |e.migrations| ==> r == Fail(MissingMigrations)
    ensures r.Pass? <==>
      && |e.migrations| <= |e.files|
      && forall k :: e.idx <= k < |e.migrations| ==> Intact(e.migrations[k], e.files[k], fs, sum)
    ensures r.Fail? ==>
      r.error.MissingMigrations? || r.error.NotAppended? || r.error.ReadFileFailed? || r.error.FileChecksumMismatch?
  {
    if |e.files| < |e.migrations| then Fail(MissingMigrations)
    else CheckFrom(e, fs, sum, e.idx)
  }

  /** The history row a completed file leaves behind. */
  function RecordOf(fs: FileSystem, f: CatalogFile, sum: Hasher): Record
    requires f.fullpath in fs.files
  {
    Record(f.name, sum(fs.files[f.fullpath]), fs.files[f.fullpath])
  }

  /** `h` is `h0` followed by one completion record for each catalog file at
      positions `lo` up to `hi`, in catalog order. */
  predicate Appended(h0: seq<Record>, h: seq<Record>, fs: FileSystem, files: seq<CatalogFile>,
                     lo: nat, hi: nat, sum: Hasher)
  {
    && lo <= hi <= |files|
    && |h| == |h0| + (hi - lo)
    && h[..|h0|] == h0
    && forall k :: lo <= k < hi ==>
         files[k].fullpath in fs.files && h[|h0| + (k - lo)] == RecordOf(fs, files[k], sum)
  }

  lemma AppendedNone(h: seq<Record>, fs: FileSystem, files: seq<CatalogFile>, lo: nat, sum: Hasher)
    requires lo <= |files|
    ensures Appended(h, h, fs, files, lo, lo, sum)
  {
  }

  lemma AppendedOne(h0: seq<Record>, h1: seq<Record>, h2: seq<Record>, fs: FileSystem,
                    files: seq<CatalogFile>, lo: nat, mid: nat, sum: Hasher)
    requires mid < |files|
    requires Appended(h0, h1, fs, files, lo, mid, sum)
    requires files[mid].fullpath in fs.files
    requires h2 == h1 + [RecordOf(fs, files[mid], sum)]
    ensures Appended(h0, h2, fs, files, lo, mid + 1, sum)
  {
    assert h2[..|h1|] == h1;
    assert h2[..|h0|] == h1[..|h0|];
  }

  lemma AppendedChain(h0: seq<Record>, h1: seq<Record>, h2: seq<Record>, fs: FileSystem,
                      files: seq<CatalogFile>, lo: nat, mid: nat, hi: nat, sum: Hasher)
    requires Appended(h0, h1, fs, files, lo, mid, sum)
    requires Appended(h1, h2, fs, files, mid, hi, sum)
    ensures Appended(h0, h2, fs, files, lo, hi, sum)
  {
    assert h2[..|h0|] == h2[..|h1|][..|h0|];
    forall k | mid <= k < hi ensures h2[|h0| + (k - lo)] == RecordOf(fs, files[k], sum) {
      assert |h0| + (k - lo) == |h1| + (k - mid);
    }
    forall k | lo <= k < mid ensures h2[|h0| + (k - lo)] == RecordOf(fs, files[k], sum) {
      assert h2[|h0| + (k - lo)] == h2[..|h1|][|h0| + (k - lo)];
    }
  }

  /** The run loop from catalog position `i` on: migrate each file in turn and stop
      at the first one that fails. */
  function MigrateFrom(st: Store, fs: FileSystem, files: seq<CatalogFile>, i: nat,
                       rejects: Rejects, sum: Hasher): (r: Run)
    requires i <= |files|
    ensures r.store.version == st.version
    ensures st.executed <= r.store.executed
    ensures |st.history| <= |r.store.history|
    decreases |files| - i
  {
    if i == |files| then Run(st, Pass)
    else
      var r1 := MigrateFile(st, fs, files[i], rejects, sum);
      if r1.outcome.Fail? then r1
      else MigrateFrom(r1.store, fs, files, i + 1, rejects, sum)
  }

  /** The history the run loop leaves: one completion record per migrated file, in
      catalog order; on success every file from `i` on, on failure the files before
      the one that failed. */
  lemma {:induction false} MigrateFromAppends(st: Store, fs: FileSystem, files: seq<CatalogFile>, i: nat,
                                             rejects: Rejects, sum: Hasher)
    requires i <= |files|
    ensures var r := MigrateFrom(st, fs, files, i, rejects, sum);
      && (r.outcome.Pass? ==> Appended(st.history, r.store.history, fs, files, i, |files|, sum))
      && (r.outcome.Fail? ==>
            && |r.store.history| - |st.history| < |files| - i
            && Appended(st.history, r.store.history, fs, files, i, i + (|r.store.history| - |st.history|), sum))
    decreases |files| - i
  {
    AppendedNone(st.history, fs, files, i, sum);
    if i < |files| {
      var r1 := MigrateFile(st, fs, files[i], rejects, sum);
      if r1.outcome.Pass? {
        assert r1.store.history == st.history + [RecordOf(fs, files[i], sum)];
        AppendedOne(st.history, st.history, r1.store.history, fs, files, i, i, sum);
        var r := MigrateFrom(r1.store, fs, files, i + 1, rejects, sum);
        assert MigrateFrom(st, fs, files, i, rejects, sum) == r;
        MigrateFromAppends(r1.store, fs, files, i + 1, rejects, sum);
        var done := |r.store.history| - |r1.store.history|;
        if r.outcome.Pass? {
          AppendedChain(st.history, r1.store.history, r.store.history, fs, files, i, i + 1, |files|, sum);
        } else {
          AppendedChain(st.history, r1.store.history, r.store.history, fs, files, i, i + 1, i + 1 + done, sum);
        }
      } else {
        assert MigrateFrom(st, fs, files, i, rejects, sum) == r1;
      }
    }
  }

  /** One more step of the run loop: once the file at `i` completes, the loop goes
      on from the next position with the store that file left. */
  lemma MigrateFromStep(st: Store, fs: FileSystem, files: seq<CatalogFile>, i: nat, rejects: Rejects, sum: Hasher)
    requires i < |files|
    requires MigrateFile(st, fs, files[i], rejects, sum).outcome.Pass?
    ensures MigrateFrom(st, fs, files, i, rejects, sum)
         == MigrateFrom(MigrateFile(st, fs, files[i], rejects, sum).store, fs, files, i + 1, rejects, sum)
  {
  }

  /** Where the run loop stops: a failed run is the outcome of the catalog file
      right after the ones it appended to the history, migrated from the store the
      completed files before it left. */
  lemma {:induction false} MigrateFromStopsAt(st: Store, fs: FileSystem, files: seq<CatalogFile>, i: nat,
                                              rejects: Rejects, sum: Hasher) returns (k: nat)
    requires i <= |files|
    ensures var r := MigrateFrom(st, fs, files, i, rejects, sum);
      r.outcome.Fail? ==>
        && i <= k < |files|
        && k == i + (|r.store.history| - |st.history|)
        && MigrateFrom(st, fs, files[..k], i, rejects, sum).outcome == Pass
        && r == MigrateFile(MigrateFrom(st, fs, files[..k], i, rejects, sum).store, fs, files[k], rejects, sum)
        && FailsOn(r.outcome.error, files[k])
    decreases |files| - i
  {
    k := i;
    if i < |files| {
      var r1 := MigrateFile(st, fs, files[i], rejects, sum);
      if r1.outcome.Pass? {
        assert |r1.store.history| == |st.history| + 1;
        var r := MigrateFrom(r1.store, fs, files, i + 1, rejects, sum);
        assert MigrateFrom(st, fs, files, i, rejects, sum) == r;
        k := MigrateFromStopsAt(r1.store, fs, files, i + 1, rejects, sum);
        if r.outcome.Fail? {
          var prefix := files[..k];
          assert prefix[i] == files[i];
          MigrateFromStep(st, fs, prefix, i, rejects, sum);
        }
      } else {
        assert MigrateFrom(st, fs, files, i, rejects, sum) == r1;
        assert r1.store.history == st.history;
        assert MigrateFrom(st, fs, files[..i], i, rejects, sum) == Run(st, Pass);
      }
    }
  }

  /** Every statement of the catalog files from position `i` on, file by file, in
      catalog order. */
  function PlannedFrom(fs: FileSystem, files: seq<CatalogFile>, i: nat): seq<string>
    requires i <= |files|
    decreases |files| - i
  {
    if i == |files| then [] else StatementsOf(fs, files[i]) + PlannedFrom(fs, files, i + 1)
  }

  /** The run loop completes when the first remaining file can be finished from the
      store's checkpoints and every later one is runnable; its completion clears the
      checkpoint table, so later files start from none. The history grows by one row
      per file. */
  lemma {:induction false} MigrateFromPasses(st: Store, fs: FileSystem, files: seq<CatalogFile>, i: nat,
                                             rejects: Rejects, sum: Hasher)
    requires i <= |files|
    requires i < |files| ==> Resumable(st, fs, files[i], rejects, sum)
    requires forall k :: i < k < |files| ==> Runnable(fs, files[k], rejects)
    ensures var r := MigrateFrom(st, fs, files, i, rejects, sum);
      && r.outcome == Pass
      && r.store.checkpoints == (if i < |files| then [] else st.checkpoints)
      && |r.store.history| == |st.history| + (|files| - i)
    decreases |files| - i
  {
    if i < |files| {
      MigrateFileResumes(st, fs, files[i], rejects, sum);
      var r1 := MigrateFile(st, fs, files[i], rejects, sum);
      if i + 1 < |files| {
        RunnableResumable(r1.store, fs, files[i + 1], rejects, sum);
      }
      MigrateFromPasses(r1.store, fs, files, i + 1, rejects, sum);
    }
  }

  /** Under the same conditions, the run loop executes exactly the first file's
      statements after its checkpoints, then every statement of every later file,
      in catalog order, and nothing else. */
  lemma {:induction false} MigrateFromExecutes(st: Store, fs: FileSystem, files: seq<CatalogFile>, i: nat,
                                               rejects: Rejects, sum: Hasher)
    requires i <= |files|
    requires i < |files| ==> Resumable(st, fs, files[i], rejects, sum)
    requires forall k :: i < k < |files| ==> Runnable(fs, files[k], rejects)
    ensures MigrateFrom(st, fs, files, i, rejects, sum).store.executed == st.executed +
      (if i < |files|
       then StatementsOf(fs, files[i])[|CheckpointSums(st.checkpoints, files[i].name)|..] + PlannedFrom(fs, files, i + 1)
       else [])
    decreases |files| - i
  {
    if i < |files| {
      var s1 := MigrateFile(st, fs, files[i], rejects, sum).store;
      var s2 := MigrateFrom(s1, fs, files, i + 1, rejects, sum).store;
      var head := StatementsOf(fs, files[i])[|CheckpointSums(st.checkpoints, files[i].name)|..];
      assert s1.executed == st.executed + head && s1.checkpoints == [] by {
        MigrateFileResumes(st, fs, files[i], rejects, sum);
      }
      assert MigrateFrom(st, fs, files, i, rejects, sum).store == s2 by {
        MigrateFileResumes(st, fs, files[i], rejects, sum);
        MigrateFromStep(st, fs, files, i, rejects, sum);
      }
      assert s2.executed == s1.executed +
        (if i + 1 < |files|
         then StatementsOf(fs, files[i + 1])[|CheckpointSums(s1.checkpoints, files[i + 1].name)|..] + PlannedFrom(fs, files, i + 2)
         else []) by {
        if i + 1 < |files| {
          RunnableResumable(s1, fs, files[i + 1], rejects, sum);
        }
        MigrateFromExecutes(s1, fs, files, i + 1, rejects, sum);
      }
      ExecutesCompose(st, s1, s2, fs, files, i);
    }
  }

  /** One file's remaining statements followed by everything the later files run,
      starting from no checkpoints, is the plan from that file on. */
  lemma ExecutesCompose(st: Store, s1: Store, s2: Store, fs: FileSystem, files: seq<CatalogFile>, i: nat)
    requires i < |files|
    requires |CheckpointSums(st.checkpoints, files[i].name)| <= |StatementsOf(fs, files[i])|
    requires s1.executed == st.executed + StatementsOf(fs, files[i])[|CheckpointSums(st.checkpoints, files[i].name)|..]
    requires s1.checkpoints == []
    requires s2.executed == s1.executed +
      (if i + 1 < |files|
       then StatementsOf(fs, files[i + 1])[|CheckpointSums(s1.checkpoints, files[i + 1].name)|..] + PlannedFrom(fs, files, i + 2)
       else [])
    ensures s2.executed == st.executed +
      (StatementsOf(fs, files[i])[|CheckpointSums(st.checkpoints, files[i].name)|..] + PlannedFrom(fs, files, i + 1))
  {
    var head := StatementsOf(fs, files[i])[|CheckpointSums(st.checkpoints, files[i].name)|..];
    if i + 1 < |files| {
      var next := StatementsOf(fs, files[i + 1]);
      assert next[0..] == next;
    }
    assert st.executed + head + PlannedFrom(fs, files, i + 1) == st.executed + (head + PlannedFrom(fs, files, i + 1));
  }

  /** What Migrate reports: whether any file was migrated, and the run itself. */
  datatype Report = Report(migrated: bool, run: Run)

  /** Migrate: run every catalog file at or beyond the history length, in catalog
      order, and report whether any file was migrated. */
  function Migrate(e: Engine, st: Store, fs: FileSystem, rejects: Rejects, sum: Hasher): (r: Report)
    ensures |e.migrations| >= |e.files| ==> r == Report(false, Run(st, Pass))
    ensures r.migrated <==> r.run.outcome.Pass? && |e.migrations| < |e.files|
    ensures r.run.store.version == st.version && st.executed <= r.run.store.executed
    ensures |st.history| <= |r.run.store.history|
    ensures r.run.outcome.Pass? && |e.migrations| < |e.files| ==>
      Appended(st.history, r.run.store.history, fs, e.files, |e.migrations|, |e.files|, sum)
  {
    if |e.migrations| >= |e.files| then Report(false, Run(st, Pass))
    else
      var r := MigrateFrom(st, fs, e.files, |e.migrations|, rejects, sum);
      MigrateFromAppends(st, fs, e.files, |e.migrations|, rejects, sum);
      Report(r.outcome.Pass?, r)
  }

  /** A failed Migrate is the outcome of the first catalog file it could not
      complete, migrated from the store the files before it left; that file comes
      right after the ones appended to the history. */
  lemma MigrateStopsAt(e: Engine, st: Store, fs: FileSystem, rejects: Rejects, sum: Hasher) returns (k: nat)
    ensures var r := Migrate(e, st, fs, rejects, sum).run;
      r.outcome.Fail? ==>
        && |e.migrations| <= k < |e.files|
        && k == |e.migrations| + (|r.store.history| - |st.history|)
        && MigrateFrom(st, fs, e.files[..k], |e.migrations|, rejects, sum).outcome == Pass
        && r == MigrateFile(MigrateFrom(st, fs, e.files[..k], |e.migrations|, rejects, sum).store, fs, e.files[k], rejects, sum)
  {
    k := |e.migrations|;
    if |e.migrations| < |e.files| {
      var r := MigrateFrom(st, fs, e.files, |e.migrations|, rejects, sum);
      assert Migrate(e, st, fs, rejects, sum).run == r;
      k := MigrateFromStopsAt(st, fs, e.files, |e.migrations|, rejects, sum);
    }
  }

  /** Migrate reports that it migrated whenever there is a file beyond the history,
      the first of them can be finished from the store's checkpoints and every later
      one is runnable; it executes exactly the statements not yet run, in catalog
      order. */
  lemma MigrateCompletes(e: Engine, st: Store, fs: FileSystem, rejects: Rejects, sum: Hasher)
    requires |e.migrations| < |e.files|
    requires Resumable(st, fs, e.files[|e.migrations|], rejects, sum)
    requires forall k :: |e.migrations| < k < |e.files| ==> Runnable(fs, e.files[k], rejects)
    ensures var r := Migrate(e, st, fs, rejects, sum);
      && r.migrated
      && r.run.store.executed == st.executed
           + (StatementsOf(fs, e.files[|e.migrations|])[|CheckpointSums(st.checkpoints, e.files[|e.migrations|].name)|..]
              + PlannedFrom(fs, e.files, |e.migrations| + 1))
  {
    MigrateFromPasses(st, fs, e.files, |e.migrations|, rejects, sum);
    MigrateFromExecutes(st, fs, e.files, |e.migrations|, rejects, sum);
    assert Migrate(e, st, fs, rejects, sum).run == MigrateFrom(st, fs, e.files, |e.migrations|, rejects, sum);
  }

  /** One row of the history after a completed run is intact: an old row because
      it was, an appended row because it records the catalog file at its position. */
  lemma IntactAfterRun(e: Engine, st: Store, h: seq<Record>, fs: FileSystem, dir: string,
                       overrides: map<string, CatalogFile>, sum: Hasher, k: nat)
    requires e.migrations == Resolve(dir, overrides, st.history)
    requires Appended(st.history, h, fs, e.files, |e.migrations|, |e.files|, sum)
    requires k < |e.files|
    requires ResolvePath(dir, overrides, e.files[k].name) == e.files[k].fullpath
    requires k < |e.migrations| ==> Intact(e.migrations[k], e.files[k], fs, sum)
    requires k < |h|
    ensures Intact(Resolve(dir, overrides, h)[k], e.files[k], fs, sum)
  {
    var n := |st.history|;
    var m := Resolve(dir, overrides, h)[k];
    if k < n {
      assert h[k] == h[..n][k] == st.history[k];
      assert m == e.migrations[k];
    } else {
      var f := e.files[k];
      assert h[n + (k - n)] == RecordOf(fs, f, sum);
      assert m.filename == f.name && m.fullpath == f.fullpath;
      assert m.checksum == sum(fs.files[f.fullpath]);
    }
  }

  /** A run that completes leaves a history the next start accepts: with the same
      files on disk and the same path resolution, every row the run appended is
      intact, and so is every row that was intact before. */
  lemma CompletedRunValidates(e: Engine, st: Store, fs: FileSystem, dir: string,
                              overrides: map<string, CatalogFile>, rejects: Rejects, sum: Hasher)
    requires e.migrations == Resolve(dir, overrides, st.history)
    requires forall k :: 0 <= k < |e.files| ==> ResolvePath(dir, overrides, e.files[k].name) == e.files[k].fullpath
    requires ValidHistory(e, fs, sum).Pass?
    requires MigrateFrom(st, fs, e.files, |e.migrations|, rejects, sum).outcome.Pass?
    ensures var h := MigrateFrom(st, fs, e.files, |e.migrations|, rejects, sum).store.history;
      && |h| == |e.files|
      && ValidHistory(Engine(Resolve(dir, overrides, h), e.files, e.idx), fs, sum).Pass?
  {
    var h := MigrateFrom(st, fs, e.files, |e.migrations|, rejects, sum).store.history;
    MigrateFromAppends(st, fs, e.files, |e.migrations|, rejects, sum);
    assert Appended(st.history, h, fs, e.files, |e.migrations|, |e.files|, sum);
    var ms := Resolve(dir, overrides, h);
    forall k | e.idx <= k < |ms| ensures Intact(ms[k], e.files[k], fs, sum) {
      IntactAfterRun(e, st, h, fs, dir, overrides, sum, k);
    }
  }
}

=== FILE: model.dfy ===
/** The state the engine works on: the migration directory as a file system value,
    the catalog entries built from it, and the database's bookkeeping tables as an
    explicit Store value that every operation threads through. */
module Model {

  /** The content digest (MD5 in hex in the engine). Left uninterpreted: every
      operation takes it as a parameter, so proofs use only that it is a function. */
  type Hasher = string -> string

  /** One entry of a directory listing. */
  datatype DirEntry = DirEntry(name: string, isDir: bool)

  /** Directory listings by path, and file contents by path. A path missing from
      `dirs` cannot be listed; one missing from `files` cannot be read. */
  datatype FileSystem = FileSystem(dirs: map<string, seq<DirEntry>>, files: map<string, string>)

  /** A migration file of the catalog: its base name and the path it is read from
      (which points into the dialect directory when an override applies). */
  datatype CatalogFile = CatalogFile(name: string, fullpath: string)

  /** One row of the checkpoint table. */
  datatype Checkpoint = Checkpoint(file: string, index: nat, statement: string, checksum: string)

  /** One row of the migration history table. */
  datatype Record = Record(filename: string, checksum: string, content: string)

  /** The database as the engine sees it through its Store collaborator: the
      statements it has accepted, the checkpoint table, the history table and the
      bookkeeping version marker. */
  datatype Store = Store(
    executed: seq<string>,
    checkpoints: seq<Checkpoint>,
    history: seq<Record>,
    version: int)

  /** filepath.Join for a directory and a base name. */
  function PathJoin(dir: string, name: string): (p: string)
    ensures |p| == |dir| + 1 + |name|
    ensures p[|dir|] == '/' && p[|dir| + 1..] == name
  {
    dir + "/" + name
  }

  /** GetMetaCheckpoints: the checksums recorded for `file`, in table order. */
  function CheckpointSums(cps: seq<Checkpoint>, file: string): (sums: seq<string>)
    ensures |sums| <= |cps|
    decreases |cps|
  {
    if |cps| == 0 then []
    else
      var last := cps[|cps| - 1];
      CheckpointSums(cps[..|cps| - 1], file) + (if last.file == file then [last.checksum] else [])
  }

  /** Checkpoint rows written for the statements at positions `lo` up to `hi`. */
  function CheckpointsFor(file: string, stmts: seq<string>, lo: nat, hi: nat, sum: Hasher): (cps: seq<Checkpoint>)
    requires lo <= hi <= |stmts|
    ensures |cps| == hi - lo
    ensures forall k :: 0 <= k < |cps| ==>
      cps[k] == Checkpoint(file, lo + k, stmts[lo + k], sum(stmts[lo + k]))
  {
    seq(hi - lo, k requires 0 <= k < hi - lo => Checkpoint(file, lo + k, stmts[lo + k], sum(stmts[lo + k])))
  }

  lemma CheckpointSumsAppend(cps: seq<Checkpoint>, more: seq<Checkpoint>, file: string)
    ensures CheckpointSums(cps + more, file) == CheckpointSums(cps, file) + CheckpointSums(more, file)
    decreases |more|
  {
    if |more| == 0 {
      assert cps + more == cps;
    } else {
      var m := more[..|more| - 1];
      CheckpointSumsAppend(cps, m, file);
      assert (cps + more)[..|cps + more| - 1] == cps + m;
    }
  }

  /** The recorded checksums match the statements they cover, position by position. */
  predicate CheckpointsMatch(stmts: seq<string>, sums: seq<string>, sum: Hasher)
  {
    |sums| <= |stmts| && forall i :: 0 <= i < |sums| ==> sum(stmts[i]) == sums[i]
  }

  /** The checksums of the rows written for one file are the statements' checksums. */
  lemma {:induction false} CheckpointSumsFor(file: string, stmts: seq<string>, lo: nat, hi: nat, sum: Hasher)
    requires lo <= hi <= |stmts|
    ensures |CheckpointSums(CheckpointsFor(file, stmts, lo, hi, sum), file)| == hi - lo
    ensures forall k :: 0 <= k < hi - lo ==>
      CheckpointSums(CheckpointsFor(file, stmts, lo, hi, sum), file)[k] == sum(stmts[lo + k])
    decreases hi - lo
  {
    if hi > lo {
      CheckpointSumsFor(file, stmts, lo, hi - 1, sum);
      var cps := CheckpointsFor(file, stmts, lo, hi, sum);
      assert cps[..|cps| - 1] == CheckpointsFor(file, stmts, lo, hi - 1, sum);
    }
  }

  /** InsertMigration. */
  function InsertRecord(st: Store, rec: Record): (st': Store)
    ensures st'.history == st.history + [rec]
    ensures st'.executed == st.executed && st'.checkpoints == st.checkpoints && st'.version == st.version
  {
    st.(history := st.history + [rec])
  }

  /** UpsertMigration: the row named like `rec` is replaced; without one, `rec` is added. */
  function Upsert(history: seq<Record>, rec: Record): (h: seq<Record>)
    ensures rec in h
    ensures forall x :: x in history && x.filename != rec.filename ==> x in h
    ensures forall x :: x in h ==> x == rec || (x in history && x.filename != rec.filename)
  {
    if exists i :: 0 <= i < |history| && history[i].filename == rec.filename then
      var h := seq(|history|, i requires 0 <= i < |history| =>
        if history[i].filename == rec.filename then rec else history[i]);
      var i :| 0 <= i < |history| && history[i].filename == rec.filename;
      assert h[i] == rec;
      assert forall x :: x in history && x.filename != rec.filename ==> x in h by {
        forall x | x in history && x.filename != rec.filename ensures x in h {
          var j :| 0 <= j < |history| && history[j] == x;
          assert h[j] == x;
        }
      }
      h
    else history + [rec]
  }
}

=== FILE: sequence.dfy ===
/** Ordering of the catalog (migrate.go, sortFiles): by the number the file name
    starts with, every name must start with a number that fits in 64 bits, and no
    two files may share a number. */
module Sequence {
  import opened Errors
  import opened Model

  const MaxUint64: nat := 0xFFFF_FFFF_FFFF_FFFF

  predicate IsDigit(c: char)
  {
    '0' <= c <= '9'
  }

  /** The match of `^\d+` on the name, or "" when the name does not start with a digit. */
  function LeadingDigits(s: string): (d: string)
    ensures |d| <= |s| && d == s[..|d|]
    ensures forall i :: 0 <= i < |d| ==> IsDigit(d[i])
    ensures |d| < |s| ==> !IsDigit(s[|d|])
    decreases |s|
  {
    if |s| == 0 || !IsDigit(s[0]) then ""
    else [s[0]] + LeadingDigits(s[1..])
  }

  /** The decimal value of a digit string. */
  function DigitsValue(d: string): nat
    requires forall i :: 0 <= i < |d| ==> IsDigit(d[i])
    decreases |d|
  {
    if |d| == 0 then 0
    else
      var c := d[|d| - 1];
      assert IsDigit(c);
      DigitsValue(d[..|d| - 1]) * 10 + (c as int - '0' as int)
  }

  /** Appending a digit multiplies the value by ten and adds the digit: the digit
      string is read in base 10, most significant digit first. */
  lemma DigitsValueAppend(d: string, c: char)
    requires forall i :: 0 <= i < |d| ==> IsDigit(d[i])
    requires IsDigit(c)
    ensures DigitsValue(d + [c]) == 10 * DigitsValue(d) + (c as int - '0' as int)
  {
    assert (d + [c])[..|d|] == d;
  }

  /** strconv.ParseUint(d, 10, 64) on a digit string: fails on the empty string
      and on values beyond 64 bits. */
  function ParseUint64(d: string): (r: Option<nat>)
    requires forall i :: 0 <= i < |d| ==> IsDigit(d[i])
    ensures r.Some? ==> r.value <= MaxUint64
    ensures r.None? <==> |d| == 0 || DigitsValue(d) > MaxUint64
  {
    if |d| == 0 then None
    else
      var v := DigitsValue(d);
      if v > MaxUint64 then None else Some(v)
  }

  /** The sequence number of a file name, if it has one. */
  function SeqNumber(name: string): Option<nat>
  {
    ParseUint64(LeadingDigits(name))
  }

  predicate Numbered(f: CatalogFile)
  {
    SeqNumber(f.name).Some?
  }

  /** The number a file sorts by (0 for a file without one, which never gets sorted). */
  function Key(f: CatalogFile): nat
  {
    match SeqNumber(f.name)
    case Some(n) => n
    case None => 0
  }

  predicate AllNumbered(files: seq<CatalogFile>)
  {
    forall i :: 0 <= i < |files| ==> Numbered(files[i])
  }

  predicate DistinctKeys<T>(key: T -> nat, xs: seq<T>)
  {
    forall i, j :: 0 <= i < j < |xs| ==> key(xs[i]) != key(xs[j])
  }

  predicate StrictlyIncreasing<T>(key: T -> nat, xs: seq<T>)
  {
    forall i, j :: 0 <= i < j < |xs| ==> key(xs[i]) < key(xs[j])
  }

  /** The first file, from position `i` on, without a sequence number. */
  function FirstUnnumbered(files: seq<CatalogFile>, i: nat): (r: Option<nat>)
    requires i <= |files|
    ensures r.None? <==> forall k :: i <= k < |files| ==> Numbered(files[k])
    ensures r.Some? ==> i <= r.value < |files| && !Numbered(files[r.value])
    decreases |files| - i
  {
    if i == |files| then None
    else if !Numbered(files[i]) then Some(i)
    else FirstUnnumbered(files, i + 1)
  }

  /** A key that two elements from position `i` on share. */
  function SharedKey<T>(key: T -> nat, xs: seq<T>, i: nat): (r: Option<nat>)
    requires i <= |xs|
    ensures r.None? <==> forall a, b :: i <= a < b < |xs| ==> key(xs[a]) != key(xs[b])
    ensures r.Some? ==> exists a, b :: i <= a < b < |xs| && key(xs[a]) == r.value && key(xs[b]) == r.value
    decreases |xs| - i
  {
    if i == |xs| then None
    else if exists j | i < j < |xs| :: key(xs[j]) == key(xs[i]) then Some(key(xs[i]))
    else
      var r := SharedKey(key, xs, i + 1);
      assert r.None? ==> forall a, b :: i <= a < b < |xs| ==> key(xs[a]) != key(xs[b]) by {
        if r.None? {
          forall a, b | i <= a < b < |xs| ensures key(xs[a]) != key(xs[b]) {
            if a == i {
              assert !(key(xs[b]) == key(xs[i]));
            }
          }
        }
      }
      r
  }

  /** A head below every key of a strictly increasing list extends it. */
  lemma ConsIncreasing<T>(key: T -> nat, h: T, rest: seq<T>)
    requires StrictlyIncreasing(key, rest)
    requires forall k :: 0 <= k < |rest| ==> key(h) < key(rest[k])
    ensures StrictlyIncreasing(key, [h] + rest)
  {
    var r := [h] + rest;
    forall a, b | 0 <= a < b < |r| ensures key(r[a]) < key(r[b]) {
      assert r[b] == rest[b - 1];
      if a > 0 {
        assert r[a] == rest[a - 1];
      }
    }
  }

  /** Every element of a list holding `x` and the tail of a strictly increasing
      list lies above that list's head, when `x` does. */
  lemma AboveHead<T>(key: T -> nat, x: T, sorted: seq<T>, rest: seq<T>)
    requires |sorted| > 0 && StrictlyIncreasing(key, sorted)
    requires key(sorted[0]) < key(x)
    requires multiset(rest) == multiset(sorted[1..]) + multiset{x}
    ensures forall k :: 0 <= k < |rest| ==> key(sorted[0]) < key(rest[k])
  {
    forall k | 0 <= k < |rest| ensures key(sorted[0]) < key(rest[k]) {
      assert rest[k] in multiset(rest);
      if rest[k] != x {
        assert rest[k] in multiset(sorted[1..]);
        var m :| 0 <= m < |sorted[1..]| && sorted[1..][m] == rest[k];
        assert sorted[m + 1] == rest[k];
      }
    }
  }

  /** Inserts an element into a strictly increasing list whose keys differ from its own. */
  function Insert<T>(key: T -> nat, x: T, sorted: seq<T>): (r: seq<T>)
    requires StrictlyIncreasing(key, sorted)
    requires forall k :: 0 <= k < |sorted| ==> key(sorted[k]) != key(x)
    ensures StrictlyIncreasing(key, r)
    ensures multiset(r) == multiset(sorted) + multiset{x}
    decreases |sorted|
  {
    if |sorted| == 0 || key(x) < key(sorted[0]) then
      ConsIncreasing(key, x, sorted);
      [x] + sorted
    else
      var rest := Insert(key, x, sorted[1..]);
      assert sorted == [sorted[0]] + sorted[1..];
      AboveHead(key, x, sorted, rest);
      ConsIncreasing(key, sorted[0], rest);
      [sorted[0]] + rest
  }

  /** Insertion sort by key, for pairwise distinct keys. */
  function Sort<T>(key: T -> nat, xs: seq<T>): (r: seq<T>)
    requires DistinctKeys(key, xs)
    ensures StrictlyIncreasing(key, r)
    ensures multiset(r) == multiset(xs)
    decreases |xs|
  {
    if |xs| == 0 then []
    else
      TailDistinct(key, xs);
      var rest := Sort(key, xs[1..]);
      KeysAvoid(key, xs[0], xs[1..], rest);
      assert xs == [xs[0]] + xs[1..];
      Insert(key, xs[0], rest)
  }

  /** The tail of a list with distinct keys has distinct keys, none of them the head's. */
  lemma TailDistinct<T>(key: T -> nat, xs: seq<T>)
    requires |xs| > 0 && DistinctKeys(key, xs)
    ensures DistinctKeys(key, xs[1..])
    ensures forall k :: 0 <= k < |xs[1..]| ==> key(xs[1..][k]) != key(xs[0])
  {
    forall a, b | 0 <= a < b < |xs| - 1 ensures key(xs[1..][a]) != key(xs[1..][b]) {
      assert xs[1..][a] == xs[a + 1] && xs[1..][b] == xs[b + 1];
    }
    forall k | 0 <= k < |xs| - 1 ensures key(xs[1..][k]) != key(xs[0]) {
      assert xs[1..][k] == xs[k + 1];
    }
  }

  /** A rearrangement of a list whose keys avoid `x`'s key avoids it too. */
  lemma KeysAvoid<T>(key: T -> nat, x: T, tail: seq<T>, rest: seq<T>)
    requires multiset(rest) == multiset(tail)
    requires forall k :: 0 <= k < |tail| ==> key(tail[k]) != key(x)
    ensures forall k :: 0 <= k < |rest| ==> key(rest[k]) != key(x)
  {
    forall k | 0 <= k < |rest| ensures key(rest[k]) != key(x) {
      assert rest[k] in multiset(tail);
      var j :| 0 <= j < |tail| && tail[j] == rest[k];
    }
  }

  /** sortFiles. With fewer than two files the comparison never runs and the list
      stands as it is. Otherwise the comparison sees every file, and, in any correct
      sort, both files of an equal-number pair, so an unnumbered name or a shared
      number fails the sort; which of several such errors is reported is left open. */
  function SortFiles(files: seq<CatalogFile>): (r: Result<seq<CatalogFile>>)
    ensures |files| < 2 ==> r == Ok(files)
    ensures |files| >= 2 ==> (r.Ok? <==> AllNumbered(files) && DistinctKeys(Key, files))
    ensures r.Ok? ==> multiset(r.value) == multiset(files)
    ensures r.Ok? && |files| >= 2 ==> AllNumbered(r.value) && StrictlyIncreasing(Key, r.value)
    ensures r.Err? ==>
      || (exists i :: 0 <= i < |files| && !Numbered(files[i]) && r.error == BadFileName(files[i].name))
      || (AllNumbered(files) && (exists a, b :: 0 <= a < b < |files| && Key(files[a]) == Key(files[b])
                                   && r.error == DuplicateNumber(Key(files[a]))))
  {
    if |files| < 2 then Ok(files)
    else
      match FirstUnnumbered(files, 0)
      case Some(i) => Err(BadFileName(files[i].name))
      case None =>
        match SharedKey(Key, files, 0)
        case Some(n) => Err(DuplicateNumber(n))
        case None =>
          var r := Sort(Key, files);
          assert AllNumbered(r) by {
            forall k | 0 <= k < |r| ensures Numbered(r[k]) {
              assert r[k] in multiset(files);
            }
          }
          Ok(r)
  }

  lemma TailIncreasing<T>(key: T -> nat, a: seq<T>)
    requires |a| > 0 && StrictlyIncreasing(key, a)
    ensures StrictlyIncreasing(key, a[1..])
  {
    forall i, j | 0 <= i < j < |a| - 1 ensures key(a[1..][i]) < key(a[1..][j]) {
      assert a[1..][i] == a[i + 1] && a[1..][j] == a[j + 1];
    }
  }

  lemma TailMultiset<T>(a: seq<T>, b: seq<T>)
    requires |a| > 0 && |b| > 0 && a[0] == b[0] && multiset(a) == multiset(b)
    ensures multiset(a[1..]) == multiset(b[1..])
  {
    assert a == [a[0]] + a[1..] && b == [b[0]] + b[1..];
    assert multiset(a) == multiset{a[0]} + multiset(a[1..]);
    assert multiset(b) == multiset{b[0]} + multiset(b[1..]);
    assert multiset(a[1..]) == multiset(a) - multiset{a[0]};
    assert multiset(b[1..]) == multiset(b) - multiset{b[0]};
  }

  lemma HeadLeast<T>(key: T -> nat, xs: seq<T>, k: int)
    requires StrictlyIncreasing(key, xs) && 0 <= k < |xs|
    ensures k == 0 || key(xs[0]) < key(xs[k])
  {
  }

  /** Strictly increasing lists holding the same elements start alike. */
  lemma SameHead<T>(key: T -> nat, a: seq<T>, b: seq<T>)
    requires StrictlyIncreasing(key, a) && StrictlyIncreasing(key, b)
    requires multiset(a) == multiset(b) && |a| > 0 && |b| > 0
    ensures a[0] == b[0]
  {
    assert a[0] in multiset(b) && b[0] in multiset(a);
    var i :| 0 <= i < |b| && b[i] == a[0];
    var j :| 0 <= j < |a| && a[j] == b[0];
    HeadLeast(key, b, i);
    HeadLeast(key, a, j);
  }

  /** Two strictly increasing lists holding the same elements are the same list. */
  lemma {:induction false} IncreasingUnique<T>(key: T -> nat, a: seq<T>, b: seq<T>)
    requires StrictlyIncreasing(key, a) && StrictlyIncreasing(key, b)
    requires multiset(a) == multiset(b)
    ensures a == b
    decreases |a|
  {
    assert |b| == |multiset(b)| == |a|;
    if |a| > 0 {
      SameHead(key, a, b);
      TailMultiset(a, b);
      TailIncreasing(key, a);
      TailIncreasing(key, b);
      IncreasingUnique(key, a[1..], b[1..]);
      assert a == [a[0]] + a[1..] && b == [b[0]] + b[1..];
    }
  }

  /** The application order does not depend on the order of the directory listing. */
  lemma SortOrderIndependent(files: seq<CatalogFile>, files': seq<CatalogFile>)
    requires multiset(files) == multiset(files')
    requires |files| >= 2
    requires SortFiles(files).Ok? && SortFiles(files').Ok?
    ensures SortFiles(files).value == SortFiles(files').value
  {
    assert |files'| == |multiset(files')| == |files|;
    IncreasingUnique(Key, SortFiles(files).value, SortFiles(files').value);
  }

  // ---------------------------------------------------------------------------
  // The comparison sortFiles hands to the sort
  // ---------------------------------------------------------------------------

  /** The comparison as written: when the second name does not parse, the error
      still names the first file. */
  function CompareAsWritten(a: CatalogFile, b: CatalogFile): (r: Result<bool>)
    ensures r.Ok? <==> Numbered(a) && Numbered(b) && Key(a) != Key(b)
    ensures r.Ok? ==> r.value == (Key(a) < Key(b))
  {
    if !Numbered(a) || !Numbered(b) then Err(BadFileName(a.name))
    else if Key(a) == Key(b) then Err(DuplicateNumber(Key(a)))
    else Ok(Key(a) < Key(b))
  }

  /** Comparing "1.sql" with "x.sql" blames "1.sql", whose name parses. */
  lemma CompareAsWrittenMisnames(p: string, q: string)
    ensures Numbered(CatalogFile("1.sql", p)) && !Numbered(CatalogFile("x.sql", q))
    ensures CompareAsWritten(CatalogFile("1.sql", p), CatalogFile("x.sql", q)) == Err(BadFileName("1.sql"))
  {
    assert LeadingDigits("x.sql") == "";
    assert LeadingDigits(".sql") == "";
    assert LeadingDigits("1.sql") == "1" by {
      assert "1.sql"[1..] == ".sql";
    }
    assert DigitsValue("1") == 1 by {
      assert "1"[..0] == "";
    }
  }

  /** The comparison as intended: an unparsable name is reported as its own. */
  function Compare(a: CatalogFile, b: CatalogFile): (r: Result<bool>)
    ensures r.Ok? <==> Numbered(a) && Numbered(b) && Key(a) != Key(b)
    ensures r.Ok? ==> r.value == (Key(a) < Key(b))
    ensures r.Err? && r.error.BadFileName? ==>
      (r.error.name == a.name && !Numbered(a)) || (r.error.name == b.name && !Numbered(b))
    ensures r.Err? && !r.error.BadFileName? ==> r.error == DuplicateNumber(Key(a)) && Key(a) == Key(b)
  {
    if !Numbered(a) then Err(BadFileName(a.name))
    else if !Numbered(b) then Err(BadFileName(b.name))
    else if Key(a) == Key(b) then Err(DuplicateNumber(Key(a)))
    else Ok(Key(a) < Key(b))
  }

  /** Every error sortFiles reports is one the comparison gives on some pair of
      distinct catalog positions. */
  lemma SortErrorIsCompareError(files: seq<CatalogFile>)
    requires SortFiles(files).Err?
    ensures exists a, b ::
      0 <= a < |files| && 0 <= b < |files| && a != b && Compare(files[a], files[b]) == Err(SortFiles(files).error)
  {
    var err := SortFiles(files).error;
    if i :| 0 <= i < |files| && !Numbered(files[i]) && err == BadFileName(files[i].name) {
      var j := if i == 0 then 1 else 0;
      assert Compare(files[i], files[j]) == Err(err);
    } else {
      var a, b :| 0 <= a < b < |files| && Key(files[a]) == Key(files[b]) && err == DuplicateNumber(Key(files[a]));
      assert Numbered(files[a]) && Numbered(files[b]);
      assert Compare(files[a], files[b]) == Err(err);
    }
  }

  /** Names are numbered by value, not compared as text: "10.sql" has number 10,
      above the 1 of "1.sql" and the 2 of "2.sql". */
  lemma ExampleKeys(f1: CatalogFile, f2: CatalogFile, f10: CatalogFile)
    requires f1.name == "1.sql" && f2.name == "2.sql" && f10.name == "10.sql"
    ensures Numbered(f1) && Numbered(f2) && Numbered(f10)
    ensures Key(f1) == 1 && Key(f2) == 2 && Key(f10) == 10
  {
    assert LeadingDigits("1.sql") == "1";
    assert LeadingDigits("2.sql") == "2";
    assert LeadingDigits("10.sql") == "10";
    DigitsValueAppend("1", '0');
    assert "1" + ['0'] == "10";
  }

  /** When every name is numbered and the numbers are distinct, the sorted catalog
      is the one arrangement of the files in increasing number order. */
  lemma SortFilesIs(files: seq<CatalogFile>, want: seq<CatalogFile>)
    requires |files| >= 2 && AllNumbered(files) && DistinctKeys(Key, files)
    requires StrictlyIncreasing(Key, want) && multiset(want) == multiset(files)
    ensures SortFiles(files) == Ok(want)
  {
    IncreasingUnique(Key, SortFiles(files).value, want);
  }
}

=== FILE: splitter.dfy ===
/** Statement splitting of a migration file (migrate.go, migrateFile, first half).

    The text is cut at every ';'. A fragment whose lower-cased text contains
    "returns trigger as" opens a trigger block: it and the fragments after it are
    glued back together, with the ';' restored, until a fragment containing
    "plpgsql" closes the block. The pieces are then trimmed, and empty pieces and
    pieces starting with "--" are dropped. */
module Splitter {
  import opened Errors
  import opened Text

  const Terminator := ';'
  const OpenMarker := "returns trigger as"
  const CloseMarker := "plpgsql"
  const CommentMarker := "--"

  /** The fragment starts a trigger-function block. */
  predicate Opens(f: string)
  {
    Contains(Lower(f), OpenMarker)
  }

  /** The fragment ends a trigger-function block. */
  predicate Closes(f: string)
  {
    Contains(Lower(f), CloseMarker)
  }

  function Prepend(p: seq<string>, r: Result<seq<string>>): (r': Result<seq<string>>)
    ensures r'.Ok? <==> r.Ok?
    ensures r.Err? ==> r' == r
  {
    match r
    case Ok(t) => Ok(p + t)
    case Err(e) => Err(e)
  }

  // ---------------------------------------------------------------------------
  // Reference grouping, read from the front of the fragment list
  // ---------------------------------------------------------------------------

  /** What an open block takes from the fragments following its opener: the text
      appended to the block, the fragments left over, and whether a closer ended it. */
  datatype Absorbed = Absorbed(text: string, rest: seq<string>, closed: bool)

  /** The fragments an open block absorbs: ordinary fragments with their ';'
      restored, up to and including a closer. A new opener ends the block early
      without being absorbed. */
  function BlockBody(frags: seq<string>): (a: Absorbed)
    ensures |a.rest| <= |frags| && a.rest == frags[|frags| - |a.rest|..]
    ensures !a.closed ==> |a.rest| == 0 || Opens(a.rest[0])
    decreases |frags|
  {
    if |frags| == 0 then Absorbed("", [], false)
    else if Opens(frags[0]) then Absorbed("", frags, false)
    else if Closes(frags[0]) then Absorbed(frags[0], frags[1..], true)
    else
      var a := BlockBody(frags[1..]);
      Absorbed(frags[0] + [Terminator] + a.text, a.rest, a.closed)
  }

  /** The statements the fragments form: an ordinary fragment is one statement; an
      opener together with the block body it absorbs is one statement. Running out
      of fragments inside a block is an error. */
  function Group(frags: seq<string>): (r: Result<seq<string>>)
    ensures r.Err? ==> r.error == UnterminatedBlock
    decreases |frags|
  {
    if |frags| == 0 then Ok([])
    else if Opens(frags[0]) then
      var a := BlockBody(frags[1..]);
      if !a.closed && |a.rest| == 0 then Err(UnterminatedBlock)
      else Prepend([frags[0] + [Terminator] + a.text], Group(a.rest))
    else Prepend([frags[0]], Group(frags[1..]))
  }

  /** The last opener among the fragments is followed by no closer (and no opener). */
  predicate EndsInsideBlock(frags: seq<string>)
  {
    exists i :: 0 <= i < |frags| && Opens(frags[i]) && NothingAfterCloses(frags, i)
  }

  predicate NothingAfterCloses(frags: seq<string>, i: int)
    requires 0 <= i < |frags|
  {
    forall k :: i < k < |frags| ==> !Opens(frags[k]) && !Closes(frags[k])
  }

  lemma {:induction false} BlockBodyOpenEnd(frags: seq<string>)
    ensures (!BlockBody(frags).closed && |BlockBody(frags).rest| == 0)
            <==> (forall k :: 0 <= k < |frags| ==> !Opens(frags[k]) && !Closes(frags[k]))
    decreases |frags|
  {
    if |frags| > 0 && !Opens(frags[0]) && !Closes(frags[0]) {
      BlockBodyOpenEnd(frags[1..]);
      assert forall k :: 1 <= k < |frags| ==> frags[k] == frags[1..][k - 1];
    }
  }

  lemma EndsInsideBlockTail(frags: seq<string>)
    requires |frags| > 0
    ensures EndsInsideBlock(frags) <==>
      EndsInsideBlock(frags[1..])
      || (Opens(frags[0]) && NothingAfterCloses(frags, 0))
  {
    if EndsInsideBlock(frags) {
      var i :| 0 <= i < |frags| && Opens(frags[i]) && NothingAfterCloses(frags, i);
      if i > 0 {
        assert frags[1..][i - 1] == frags[i];
        assert NothingAfterCloses(frags[1..], i - 1);
      }
    }
    if EndsInsideBlock(frags[1..]) {
      var i :| 0 <= i < |frags[1..]| && Opens(frags[1..][i]) && NothingAfterCloses(frags[1..], i);
      assert NothingAfterCloses(frags, i + 1);
    }
  }

  /** Grouping fails exactly when the input ends while a trigger block is still open. */
  lemma {:induction false} GroupFailsIff(frags: seq<string>)
    ensures Group(frags).Err? <==> EndsInsideBlock(frags)
    decreases |frags|
  {
    if |frags| == 0 {
    } else {
      EndsInsideBlockTail(frags);
      var tail := frags[1..];
      if Opens(frags[0]) {
        var a := BlockBody(tail);
        BlockBodyOpenEnd(tail);
        assert NothingAfterCloses(frags, 0) <==>
          (forall k :: 0 <= k < |tail| ==> !Opens(tail[k]) && !Closes(tail[k])) by {
          assert forall k :: 1 <= k < |frags| ==> frags[k] == tail[k - 1];
        }
        if !a.closed && |a.rest| == 0 {
        } else {
          GroupFailsIff(a.rest);
          if a.closed {
            BlockBodyClosedTail(tail);
          } else {
            assert Opens(a.rest[0]);
            BlockBodyStopsAtOpener(tail);
          }
        }
      } else {
        GroupFailsIff(tail);
      }
    }
  }

  /** After a closed block, ending inside a block is decided by what follows it:
      the absorbed fragments hold no opener, and the closer itself rules out every
      earlier opener. */
  lemma {:induction false} BlockBodyClosedTail(frags: seq<string>)
    requires BlockBody(frags).closed
    ensures EndsInsideBlock(frags) <==> EndsInsideBlock(BlockBody(frags).rest)
    decreases |frags|
  {
    var a := BlockBody(frags);
    EndsInsideBlockTail(frags);
    if Closes(frags[0]) && !Opens(frags[0]) {
      assert a.rest == frags[1..];
    } else {
      BlockBodyClosedTail(frags[1..]);
    }
  }

  /** When a new opener stops the block, the verdict is decided from that opener on. */
  lemma {:induction false} BlockBodyStopsAtOpener(frags: seq<string>)
    requires !BlockBody(frags).closed && |BlockBody(frags).rest| > 0
    ensures EndsInsideBlock(frags) <==> EndsInsideBlock(BlockBody(frags).rest)
    decreases |frags|
  {
    if !Opens(frags[0]) {
      EndsInsideBlockTail(frags);
      BlockBodyStopsAtOpener(frags[1..]);
    }
  }

  // ---------------------------------------------------------------------------
  // The Go loop: a left-to-right state machine over the fragments
  // ---------------------------------------------------------------------------

  /** Loop state: the statements built so far and whether a trigger block is open
      (the last statement is the open block). */
  datatype Joiner = Joiner(stmts: seq<string>, open: bool)

  predicate Valid(j: Joiner)
  {
    j.open ==> |j.stmts| > 0
  }

  /** One iteration of the loop over the fragments. */
  function Step(j: Joiner, f: string): (j': Joiner)
    requires Valid(j)
    ensures Valid(j')
  {
    if Opens(f) then Joiner(j.stmts + [f + [Terminator]], true)
    else if j.open then
      var n := |j.stmts|;
      if !Closes(f) then Joiner(j.stmts[..n - 1] + [j.stmts[n - 1] + f + [Terminator]], true)
      else Joiner(j.stmts[..n - 1] + [j.stmts[n - 1] + f], false)
    else Joiner(j.stmts + [f], false)
  }

  /** What the loop will return from state `j` with `rest` still to read,
      expressed through the reference grouping. */
  function Resume(j: Joiner, rest: seq<string>): Result<seq<string>>
    requires Valid(j)
  {
    if !j.open then Prepend(j.stmts, Group(rest))
    else
      var a := BlockBody(rest);
      var n := |j.stmts|;
      if !a.closed && |a.rest| == 0 then Err(UnterminatedBlock)
      else Prepend(j.stmts[..n - 1] + [j.stmts[n - 1] + a.text], Group(a.rest))
  }

  lemma PrependPrepend(p: seq<string>, q: seq<string>, r: Result<seq<string>>)
    ensures Prepend(p, Prepend(q, r)) == Prepend(p + q, r)
  {
    if r.Ok? {
      assert p + (q + r.value) == (p + q) + r.value;
    }
  }

  /** At an opener, whatever block was open has ended: resuming there is grouping
      afresh after the statements built so far. */
  lemma ResumeAtOpener(j: Joiner, frags: seq<string>)
    requires Valid(j) && |frags| > 0 && Opens(frags[0])
    ensures Resume(j, frags) == Prepend(j.stmts, Group(frags))
  {
    if j.open {
      assert BlockBody(frags) == Absorbed("", frags, false);
      ExtendLastByNothing(j.stmts);
    }
  }

  lemma ExtendLastByNothing(stmts: seq<string>)
    requires |stmts| > 0
    ensures stmts[..|stmts| - 1] + [stmts[|stmts| - 1] + ""] == stmts
  {
    assert stmts[|stmts| - 1] + "" == stmts[|stmts| - 1];
  }

  lemma StepResumeOpener(j: Joiner, f: string, rest: seq<string>)
    requires Valid(j) && Opens(f)
    ensures Resume(Step(j, f), rest) == Resume(j, [f] + rest)
  {
    var frags := [f] + rest;
    assert frags[0] == f && frags[1..] == rest;
    ResumeAtOpener(j, frags);
    var n := |j.stmts|;
    var a := BlockBody(rest);
    var s := f + [Terminator];
    var j' := Joiner(j.stmts + [s], true);
    assert Step(j, f) == j';
    if !(!a.closed && |a.rest| == 0) {
      assert Group(frags) == Prepend([s + a.text], Group(a.rest));
      PrependPrepend(j.stmts, [s + a.text], Group(a.rest));
      assert j'.stmts[..n] == j.stmts && j'.stmts[n] == s;
    }
  }

  lemma StepResumeInside(j: Joiner, f: string, rest: seq<string>)
    requires Valid(j) && !Opens(f) && j.open && !Closes(f)
    ensures Resume(Step(j, f), rest) == Resume(j, [f] + rest)
  {
    var frags := [f] + rest;
    assert frags[1..] == rest;
    var n := |j.stmts|;
    var a := BlockBody(rest);
    var j' := Step(j, f);
    assert j'.stmts[..n - 1] == j.stmts[..n - 1];
    assert BlockBody(frags) == Absorbed(f + [Terminator] + a.text, a.rest, a.closed);
    assert j.stmts[n - 1] + f + [Terminator] + a.text == j.stmts[n - 1] + (f + [Terminator] + a.text);
  }

  lemma StepResumeCloser(j: Joiner, f: string, rest: seq<string>)
    requires Valid(j) && !Opens(f) && j.open && Closes(f)
    ensures Resume(Step(j, f), rest) == Resume(j, [f] + rest)
  {
    var frags := [f] + rest;
    assert frags[1..] == rest;
    var n := |j.stmts|;
    assert BlockBody(frags) == Absorbed(f, rest, true);
    PrependPrepend(j.stmts[..n - 1], [j.stmts[n - 1] + f], Group(rest));
  }

  lemma StepResumePlain(j: Joiner, f: string, rest: seq<string>)
    requires Valid(j) && !Opens(f) && !j.open
    ensures Resume(Step(j, f), rest) == Resume(j, [f] + rest)
  {
    var frags := [f] + rest;
    assert frags[1..] == rest;
    PrependPrepend(j.stmts, [f], Group(rest));
  }

  /** One loop iteration moves one fragment from the input into the state
      without changing the eventual answer. */
  lemma StepResume(j: Joiner, f: string, rest: seq<string>)
    requires Valid(j)
    ensures Resume(Step(j, f), rest) == Resume(j, [f] + rest)
  {
    if Opens(f) {
      StepResumeOpener(j, f, rest);
    } else if j.open && !Closes(f) {
      StepResumeInside(j, f, rest);
    } else if j.open {
      StepResumeCloser(j, f, rest);
    } else {
      StepResumePlain(j, f, rest);
    }
  }

  /** The fragment-joining loop of migrateFile, run over the ';'-fragments. It
      computes exactly the reference grouping. */
  method JoinTriggerBlocks(frags: seq<string>) returns (r: Result<seq<string>>)
    ensures r == Group(frags)
    ensures r.Err? <==> EndsInsideBlock(frags)
  {
    var j := Joiner([], false);
    var i := 0;
    assert Prepend([], Group(frags)) == Group(frags) by {
      if Group(frags).Ok? {
        assert [] + Group(frags).value == Group(frags).value;
      }
    }
    while i < |frags|
      invariant 0 <= i <= |frags|
      invariant Valid(j)
      invariant Resume(j, frags[i..]) == Group(frags)
    {
      StepResume(j, frags[i], frags[i + 1..]);
      assert [frags[i]] + frags[i + 1..] == frags[i..];
      j := Step(j, frags[i]);
      i := i + 1;
    }
    if j.open {
      r := Err(UnterminatedBlock);
    } else {
      r := Ok(j.stmts);
      assert j.stmts + [] == j.stmts;
    }
    GroupFailsIff(frags);
  }

  // ---------------------------------------------------------------------------
  // Properties of the grouping
  // ---------------------------------------------------------------------------

  /** Without trigger blocks every fragment is a statement of its own. */
  lemma {:induction false} GroupWithoutOpeners(frags: seq<string>)
    requires forall k :: 0 <= k < |frags| ==> !Opens(frags[k])
    ensures Group(frags) == Ok(frags)
    decreases |frags|
  {
    if |frags| > 0 {
      GroupWithoutOpeners(frags[1..]);
      assert [frags[0]] + frags[1..] == frags;
    }
  }

  /** A block body of ordinary fragments ended by a closer absorbs exactly those
      fragments, re-joined with their ';'. */
  lemma {:induction false} BlockBodyClosed(body: seq<string>, closer: string, rest: seq<string>)
    requires forall k :: 0 <= k < |body| ==> !Opens(body[k]) && !Closes(body[k])
    requires Closes(closer) && !Opens(closer)
    ensures BlockBody(body + [closer] + rest) == Absorbed(JoinWith(body + [closer], Terminator), rest, true)
    decreases |body|
  {
    var frags := body + [closer] + rest;
    if |body| == 0 {
      assert frags[0] == closer && frags[1..] == rest;
    } else {
      BlockBodyClosed(body[1..], closer, rest);
      assert frags[1..] == body[1..] + [closer] + rest;
      assert (body + [closer])[1..] == body[1..] + [closer];
    }
  }

  /** A trigger function whose body holds embedded ';' becomes a single statement:
      the opener, the body fragments and the closer, re-joined with ';'. */
  lemma TriggerBlockIsOneStatement(opener: string, body: seq<string>, closer: string, rest: seq<string>)
    requires Opens(opener)
    requires forall k :: 0 <= k < |body| ==> !Opens(body[k]) && !Closes(body[k])
    requires Closes(closer) && !Opens(closer)
    ensures Group([opener] + body + [closer] + rest)
         == Prepend([JoinWith([opener] + body + [closer], Terminator)], Group(rest))
  {
    var frags := [opener] + body + [closer] + rest;
    assert frags[1..] == body + [closer] + rest;
    BlockBodyClosed(body, closer, rest);
    assert ([opener] + body + [closer])[1..] == body + [closer];
  }

  // ---------------------------------------------------------------------------
  // Trimming and filtering
  // ---------------------------------------------------------------------------

  /** A trimmed piece is kept: it is non-empty and not a "--" comment. */
  predicate Executable(t: string)
  {
    |t| > 0 && !HasPrefix(t, CommentMarker)
  }

  /** One piece after trimming: itself if executable, otherwise nothing. A piece
      whose trimmed text opens with a comment line is dropped whole, statements
      after that line included. */
  function Keep(cmd: string): (r: seq<string>)
    ensures |r| <= 1
    ensures forall i :: 0 <= i < |r| ==> Trimmed(r[i]) && Executable(r[i])
  {
    var t := TrimSpace(cmd);
    if Executable(t) then [t] else []
  }

  /** Trims every piece and keeps the executable ones, in order. */
  function Filter(cmds: seq<string>): (r: seq<string>)
    ensures |r| <= |cmds|
    decreases |cmds|
  {
    if |cmds| == 0 then [] else Keep(cmds[0]) + Filter(cmds[1..])
  }

  /** Every kept statement is trimmed, non-empty and not a comment. */
  lemma {:induction false} FilterExecutable(cmds: seq<string>)
    ensures forall i :: 0 <= i < |Filter(cmds)| ==> Trimmed(Filter(cmds)[i]) && Executable(Filter(cmds)[i])
    decreases |cmds|
  {
    if |cmds| > 0 {
      FilterExecutable(cmds[1..]);
    }
  }

  /** Filtering works piece by piece: it distributes over concatenation. */
  lemma {:induction false} FilterAppend(a: seq<string>, b: seq<string>)
    ensures Filter(a + b) == Filter(a) + Filter(b)
    decreases |a|
  {
    if |a| > 0 {
      var x, xs := a[0], a[1..];
      assert a == [x] + xs;
      assert a + b == [x] + (xs + b);
      calc {
        Filter(a + b);
        { FilterCons(x, xs + b); }
        Keep(x) + Filter(xs + b);
        { FilterAppend(xs, b); }
        Keep(x) + (Filter(xs) + Filter(b));
        { ConcatAssoc(Keep(x), Filter(xs), Filter(b)); }
        (Keep(x) + Filter(xs)) + Filter(b);
        { FilterCons(x, xs); }
        Filter(a) + Filter(b);
      }
    } else {
      assert a + b == b;
    }
  }

  lemma FilterCons(x: string, xs: seq<string>)
    ensures Filter([x] + xs) == Keep(x) + Filter(xs)
  {
    assert ([x] + xs)[0] == x && ([x] + xs)[1..] == xs;
  }

  lemma ConcatAssoc(p: seq<string>, q: seq<string>, r: seq<string>)
    ensures p + (q + r) == (p + q) + r
  {
  }

  /** The kept statements are exactly the executable trimmed pieces. */
  lemma {:induction false} FilterMembers(cmds: seq<string>, x: string)
    ensures x in Filter(cmds) <==>
      Executable(x) && exists i :: 0 <= i < |cmds| && TrimSpace(cmds[i]) == x
    decreases |cmds|
  {
    if |cmds| > 0 {
      FilterMembers(cmds[1..], x);
      if exists i :: 1 <= i < |cmds| && TrimSpace(cmds[i]) == x {
        var i :| 1 <= i < |cmds| && TrimSpace(cmds[i]) == x;
        assert TrimSpace(cmds[1..][i - 1]) == x;
      }
      if exists i :: 0 <= i < |cmds[1..]| && TrimSpace(cmds[1..][i]) == x {
        var i :| 0 <= i < |cmds[1..]| && TrimSpace(cmds[1..][i]) == x;
        assert TrimSpace(cmds[i + 1]) == x;
      }
    }
  }

  /** Trimming never introduces a character the piece did not have. */
  lemma TrimSpaceKeepsOut(s: string, c: char)
    requires c !in s
    ensures c !in TrimSpace(s)
  {
    var t := TrimSpace(s);
    TrimSpacePadded(s);
    var i := TrimStart(s);
    forall k | 0 <= k < |t| ensures t[k] != c {
      assert t[k] == s[i..i + |t|][k] == s[i + k];
    }
  }

  lemma {:induction false} FilterKeepsOut(cmds: seq<string>, c: char)
    requires forall i :: 0 <= i < |cmds| ==> c !in cmds[i]
    ensures forall i :: 0 <= i < |Filter(cmds)| ==> c !in Filter(cmds)[i]
    decreases |cmds|
  {
    if |cmds| > 0 {
      TrimSpaceKeepsOut(cmds[0], c);
      FilterKeepsOut(cmds[1..], c);
    }
  }

  // ---------------------------------------------------------------------------
  // The whole splitter
  // ---------------------------------------------------------------------------

  /** The statements of migration file `name` with text `content`. */
  function SplitStatements(name: string, content: string): (r: Result<seq<string>>)
    ensures r.Ok? ==> |r.value| > 0
    ensures r.Ok? ==> forall i :: 0 <= i < |r.value| ==> Trimmed(r.value[i]) && Executable(r.value[i])
    ensures r.Err? ==> r.error == UnterminatedBlock || r.error == NoStatements(name)
    ensures r == Err(UnterminatedBlock) <==> EndsInsideBlock(Split(content, Terminator))
    ensures Group(Split(content, Terminator)).Ok? ==>
      var stmts := Filter(Group(Split(content, Terminator)).value);
      && (r.Ok? <==> stmts != [])
      && (r.Ok? ==> r.value == stmts)
      && (r.Err? ==> r.error == NoStatements(name))
  {
    var frags := Split(content, Terminator);
    GroupFailsIff(frags);
    match Group(frags)
    case Err(e) => Err(e)
    case Ok(cmds) =>
      var stmts := Filter(cmds);
      FilterExecutable(cmds);
      if |stmts| == 0 then Err(NoStatements(name)) else Ok(stmts)
  }

  /** A file without trigger blocks splits into its trimmed, executable
      ';'-fragments, none of which contains a ';'. */
  lemma SplitWithoutTriggers(name: string, content: string)
    requires forall k :: 0 <= k < |Split(content, Terminator)| ==> !Opens(Split(content, Terminator)[k])
    ensures var stmts := Filter(Split(content, Terminator));
      SplitStatements(name, content) == (if |stmts| == 0 then Err(NoStatements(name)) else Ok(stmts))
    ensures SplitStatements(name, content).Ok? ==>
      forall i :: 0 <= i < |SplitStatements(name, content).value| ==>
        Terminator !in SplitStatements(name, content).value[i]
  {
    var frags := Split(content, Terminator);
    GroupWithoutOpeners(frags);
    FilterKeepsOut(frags, Terminator);
  }

  /** A file whose text begins with a trigger function: the function, re-joined
      across its embedded ';', is the first statement once trimmed (unless nothing
      executable is left of it), followed by the statements of the rest. */
  lemma TriggerFileStatements(name: string, content: string,
                              opener: string, body: seq<string>, closer: string, rest: seq<string>)
    requires Split(content, Terminator) == [opener] + body + [closer] + rest
    requires Opens(opener)
    requires forall k :: 0 <= k < |body| ==> !Opens(body[k]) && !Closes(body[k])
    requires Closes(closer) && !Opens(closer)
    requires Group(rest).Ok?
    ensures var stmts := Keep(JoinWith([opener] + body + [closer], Terminator)) + Filter(Group(rest).value);
      SplitStatements(name, content) == (if stmts == [] then Err(NoStatements(name)) else Ok(stmts))
  {
    var block := JoinWith([opener] + body + [closer], Terminator);
    TriggerBlockIsOneStatement(opener, body, closer, rest);
    FilterCons(block, Group(rest).value);
  }
}

=== FILE: text.dfy ===
/** The Go string helpers the engine relies on (strings.Split, strings.Contains,
    strings.ToLower, strings.TrimSpace, strings.HasPrefix, filepath.Ext and
    filepath.Split), stated over `seq<char>`. */
module Text {

  /** Re-joins fragments with the separator `c` between consecutive ones
      (strings.Join with a one-character separator). */
  function JoinWith(fs: seq<string>, c: char): string
  {
    if |fs| == 0 then ""
    else if |fs| == 1 then fs[0]
    else fs[0] + [c] + JoinWith(fs[1..], c)
  }

  /** strings.Split(s, string(c)): the maximal `c`-free fragments, always at least one. */
  function Split(s: string, c: char): (r: seq<string>)
    ensures |r| >= 1
    ensures JoinWith(r, c) == s
    ensures forall i :: 0 <= i < |r| ==> c !in r[i]
    decreases |s|
  {
    if |s| == 0 then [""]
    else if s[0] == c then
      var t := Split(s[1..], c);
      assert s == [c] + s[1..];
      [""] + t
    else
      var t := Split(s[1..], c);
      var r := [[s[0]] + t[0]] + t[1..];
      assert s == [s[0]] + s[1..];
      assert |t| > 1 ==> JoinWith(t, c) == t[0] + [c] + JoinWith(t[1..], c);
      assert |t| > 1 ==> r[1..] == t[1..];
      r
  }

  lemma SplitCons(x: char, rest: string, c: char)
    ensures x == c ==> Split([x] + rest, c) == [""] + Split(rest, c)
    ensures x != c ==> Split([x] + rest, c) == [[x] + Split(rest, c)[0]] + Split(rest, c)[1..]
  {
    assert ([x] + rest)[1..] == rest;
  }

  lemma JoinFirstChar(fs: seq<string>, c: char)
    requires |fs| >= 1 && |fs[0]| > 0
    ensures JoinWith(fs, c) == [fs[0][0]] + JoinWith([fs[0][1..]] + fs[1..], c)
  {
    var fs' := [fs[0][1..]] + fs[1..];
    assert fs[0] == [fs[0][0]] + fs[0][1..];
    if |fs| > 1 {
      assert fs'[1..] == fs[1..];
    }
  }

  /** Split inverts JoinWith on separator-free fragments: the fragments are
      exactly what the separators delimit. */
  lemma {:induction false} SplitJoin(fs: seq<string>, c: char)
    requires |fs| >= 1
    requires forall i :: 0 <= i < |fs| ==> c !in fs[i]
    ensures Split(JoinWith(fs, c), c) == fs
    decreases |fs|, |fs[0]|
  {
    var head := fs[0];
    if |head| == 0 {
      if |fs| > 1 {
        var rest := JoinWith(fs[1..], c);
        assert JoinWith(fs, c) == [c] + rest;
        SplitJoin(fs[1..], c);
        SplitCons(c, rest, c);
        assert fs == [""] + fs[1..];
      }
    } else {
      var fs' := [head[1..]] + fs[1..];
      assert head[0] in head;
      forall i | 0 <= i < |fs'| ensures c !in fs'[i] {
        if i == 0 {
          assert forall x :: x in head[1..] ==> x in head;
        } else {
          assert fs'[i] == fs[i];
        }
      }
      SplitJoin(fs', c);
      JoinFirstChar(fs, c);
      SplitCons(head[0], JoinWith(fs', c), c);
      assert head == [head[0]] + head[1..];
      assert fs'[1..] == fs[1..];
      assert fs == [head] + fs[1..];
    }
  }

  /** ASCII lower-casing of one character (strings.ToLower restricted to ASCII). */
  function LowerChar(ch: char): (r: char)
    ensures !('A' <= r <= 'Z')
    ensures r == ch || ('A' <= ch <= 'Z' && r as int == ch as int + 32)
  {
    if 'A' <= ch <= 'Z' then (ch as int + 32) as char else ch
  }

  function Lower(s: string): (r: string)
    ensures |r| == |s|
    ensures forall i :: 0 <= i < |s| ==> r[i] == LowerChar(s[i])
  {
    seq(|s|, i requires 0 <= i < |s| => LowerChar(s[i]))
  }

  /** strings.HasPrefix. */
  predicate HasPrefix(s: string, p: string)
  {
    |p| <= |s| && s[..|p|] == p
  }

  /** `sub` occurs in `s` starting at position `i`. */
  predicate OccursAt(s: string, sub: string, i: int)
  {
    0 <= i && i + |sub| <= |s| && s[i..i + |sub|] == sub
  }

  /** strings.Contains, scanning positions from the left. */
  predicate Contains(s: string, sub: string)
    decreases |s|
  {
    HasPrefix(s, sub) || (|s| > 0 && Contains(s[1..], sub))
  }

  /** The scan finds `sub` exactly when some position holds an occurrence. */
  lemma {:induction false} ContainsIff(s: string, sub: string)
    ensures Contains(s, sub) <==> exists i :: OccursAt(s, sub, i)
    decreases |s|
  {
    if HasPrefix(s, sub) {
      assert OccursAt(s, sub, 0);
    } else if |s| == 0 {
      assert |sub| > 0;
    } else {
      ContainsIff(s[1..], sub);
      if Contains(s[1..], sub) {
        var i :| OccursAt(s[1..], sub, i);
        assert s[i + 1..i + 1 + |sub|] == s[1..][i..i + |sub|];
        assert OccursAt(s, sub, i + 1);
      } else {
        forall i | 1 <= i && OccursAt(s, sub, i) ensures OccursAt(s[1..], sub, i - 1) {
          assert s[1..][i - 1..i - 1 + |sub|] == s[i..i + |sub|];
        }
      }
    }
  }

  /** Whitespace as unicode.IsSpace sees it within Latin-1. */
  predicate IsSpace(ch: char)
  {
    ch == ' ' || ch == '\t' || ch == '\n' || ch == '\U{000B}' || ch == '\U{000C}'
    || ch == '\r' || ch == '\U{0085}' || ch == '\U{00A0}'
  }

  /** `t` has no surrounding whitespace. */
  predicate Trimmed(t: string)
  {
    |t| == 0 || (!IsSpace(t[0]) && !IsSpace(t[|t| - 1]))
  }

  /** `t` sits at position `i` of `s` and only whitespace surrounds it. */
  predicate Padded(s: string, t: string, i: int)
  {
    OccursAt(s, t, i)
    && (forall k :: 0 <= k < i ==> IsSpace(s[k]))
    && (forall k :: i + |t| <= k < |s| ==> IsSpace(s[k]))
  }

  /** The first position at or after `i` that is not whitespace (or |s|). */
  function SpanLeft(s: string, i: nat): (r: nat)
    requires i <= |s|
    ensures i <= r <= |s|
    ensures forall k :: i <= k < r ==> IsSpace(s[k])
    ensures r < |s| ==> !IsSpace(s[r])
    decreases |s| - i
  {
    if i < |s| && IsSpace(s[i]) then SpanLeft(s, i + 1) else i
  }

  /** The end of the text before the whitespace run that ends at `j`, looking no
      further back than `lo`. */
  function SpanRight(s: string, lo: nat, j: nat): (r: nat)
    requires lo <= j <= |s|
    ensures lo <= r <= j
    ensures forall k :: r <= k < j ==> IsSpace(s[k])
    ensures r > lo ==> !IsSpace(s[r - 1])
    decreases j
  {
    if j > lo && IsSpace(s[j - 1]) then SpanRight(s, lo, j - 1) else j
  }

  /** Where strings.TrimSpace's result starts in its input. */
  function TrimStart(s: string): nat
  {
    SpanLeft(s, 0)
  }

  /** strings.TrimSpace: the text between the leading and trailing whitespace runs. */
  function TrimSpace(s: string): (r: string)
    ensures Trimmed(r)
    ensures |r| <= |s|
  {
    var a := SpanLeft(s, 0);
    s[a..SpanRight(s, a, |s|)]
  }

  /** What TrimSpace removes is whitespace on both sides, and what it keeps is a
      contiguous piece of the input. */
  lemma TrimSpacePadded(s: string)
    ensures Padded(s, TrimSpace(s), TrimStart(s))
  {
  }

  /** Any whitespace-free text padded only by whitespace is what TrimSpace returns. */
  lemma TrimSpaceUnique(s: string, t: string, i: int)
    requires Trimmed(t) && Padded(s, t, i)
    ensures TrimSpace(s) == t
  {
    var a := SpanLeft(s, 0);
    var b := SpanRight(s, a, |s|);
    if |t| > 0 {
      assert s[i] == t[0] && s[i + |t| - 1] == t[|t| - 1];
      assert a == i;
      assert b == i + |t|;
    }
  }

  /** filepath.Split's file part: everything after the last '/'. */
  function Base(path: string): (r: string)
    ensures |r| <= |path| && r == path[|path| - |r|..]
    ensures '/' !in r
    ensures |r| < |path| ==> path[|path| - |r| - 1] == '/'
    decreases |path|
  {
    if |path| == 0 || path[|path| - 1] == '/' then ""
    else
      var r := Base(path[..|path| - 1]) + [path[|path| - 1]];
      assert path[..|path| - 1][|path| - |r|..] + [path[|path| - 1]] == path[|path| - |r|..];
      r
  }

  /** strings.LastIndexByte: the position of the last `c`, or -1. */
  function LastIndexOf(s: string, c: char): (i: int)
    ensures -1 <= i < |s|
    ensures i >= 0 ==> s[i] == c
    ensures forall k :: i < k < |s| ==> s[k] != c
    decreases |s|
  {
    if |s| == 0 then -1
    else if s[|s| - 1] == c then |s| - 1
    else LastIndexOf(s[..|s| - 1], c)
  }

  /** filepath.Ext of a base name (which holds no path separator): the suffix
      from the last '.', or "" when there is none. */
  function Ext(name: string): (r: string)
    ensures r == "" || (r[0] == '.' && '.' !in r[1..])
    ensures |r| <= |name| && r == name[|name| - |r|..]
  {
    var i := LastIndexOf(name, '.');
    if i < 0 then ""
    else
      name[i..]
  }

  /** The extension test `Ext(name) == ".sql"` is the suffix test. */
  lemma ExtSql(name: string)
    ensures Ext(name) == ".sql" <==> (|name| >= 4 && name[|name| - 4..] == ".sql")
  {
    var n := |name|;
    if |name| >= 4 && name[n - 4..] == ".sql" {
      assert name[n - 4] == '.';
      assert forall k :: n - 4 < k < n ==> name[k] != '.' by {
        forall k | n - 4 < k < n ensures name[k] != '.' {
          assert name[k] == name[n - 4..][k - (n - 4)];
        }
      }
      assert LastIndexOf(name, '.') == n - 4;
    }
  }
}
